=== FILE: README.md ===
# GeminiCat in Dafny

GeminiCat is a desktop pet. It is a 64×64 cat in a borderless Tk window that:

- wanders the screen;
- becomes happy when clicked;
- falls asleep when left alone;
- opens a chat with the Gemini API on a right click.

Asset scripts draw its sprites. This project models the parts of the program that are logic rather than drawing, and proves properties about them.

- **The pet** (`main.py`, class `CatPet`), in module `CatPet`. The pet is an immutable record. Each event handler is a pure step function:
  - `on_left_click`, `reset_mood`, `mood_check`, `random_behavior`, `update_position`, `on_drag`;
  - the sprite choice of `update_sprite` and `load_sprites`.

  The clock, the screen size, the mouse position and the random picks are parameters. A handler that re-arms a Tk timer returns the delay it would pass to `after`. The window position is the geometry string the handlers write and read back. `Step` and `Run` drive the handlers from a sequence of events. The invariants are proved along any such sequence: velocities stay in {-1, 0, 1}, a sleeping pet stands still, and, when all three sprites were loaded, the canvas shows the mood's sprite.
- **Python string semantics** used by the rest (module `Strings`):
  - `str.split` with a separator, and `str.join`;
  - `strip` and `lower`;
  - `str(int)` and `int(str)`.

  The lemmas relate them: split then join is the identity, and `int(str(i)) == i` for every integer of at most 4300 digits.
- **Colours** (module `Colors`). `hex_to_rgb` in sprite_generator_hd.py and `hex_to_rgba` in cat_sprites.py are the same code, so they are one function, `HexToRgba`. It includes what Python's `int(s, 16)` does on the clamped slices of a short or odd-length string.
- **The HD sprite generator** (sprite_generator_hd.py, module `Markings`):
  - the palettes;
  - the paw-offset rule of a walk frame;
  - the three marking passes: siamese points, tuxedo white and tabby stripes.

  Each pass is a method with nested loops over a 2-D pixel array. Each is checked against a reference definition that maps every pixel independently (`MapPixels`). From that follow "nothing outside the regions changes", "the silhouette is kept" and "applying it twice is applying it once". `main`'s 28 outputs go to 28 distinct files.
- **The low-resolution sprites** (cat_sprites.py, module `CatSprites`). `create_sprite` paints a palette-key grid onto a transparent 32×32 canvas, with its error cases, and enlarges it to 64×64 by nearest-neighbour resizing (module `Resize`). The three 16×16 grids are transcribed one character per cell. The sprite map's keys are the names the pet loads.
- **The Pop Shop importer** (pop_shop_integrator.py, module `PopShop`):
  - the sheet-grid arithmetic;
  - the crop boxes of a walk row;
  - the selection of six walk frames from fewer;
  - the files saved per breed;
  - the skip of missing sheets;
  - the end of the run at the first sheet that exists but does not open.

  Output file names are shared with the HD generator (module `SpriteFiles`). A file's state (missing, readable or broken) is shared with the pet's sprite loading (module `Files`).
- **The chat** (gemini_chat_real.py, module `Chat`):
  - where the API key comes from;
  - the order in which setup reports problems;
  - how a message is written into the transcript;
  - the blank-input check;
  - the offline keyword classifier;
  - how a reply replaces the "A processar..." placeholder.

Some behaviour of the code worth knowing:

- `update_position` bounces off all four edges. It moves the window on every tick, even when the position has not changed.
- `main.py` keeps no animation state or walk-frame counter. The pet's picture depends only on its mood.
- With an empty `GEMINI_API_KEY` variable and no key in `.env`, `get_api_key` returns the empty string, not `None`.
- Nothing guards `integrate_pop_shop_cats`'s loop. A Pop Shop sheet that exists but cannot be opened ends the whole run, and the breeds after it get no files.
- One `try` wraps the whole sprite-loading loop. The first sprite file that exists but cannot be opened ends it, and the sprites after it are not loaded.

## Model

| member | source | states |
|---|---|---|
| CatPet.SpriteName | main.py:97-99 | the sprite shown for a mood is "cat_" followed by the mood's name, one of the three names `load_sprites` tries |
| CatPet.SpriteNamesDistinct | main.py:97-99 | different moods look up different sprites |
| CatPet.LoadSprites | main.py:52-75 | a sprite is loaded from disk exactly when the directory exists, its file opens, and no file tried before it raised; when none is, all three stand-ins are; the result is never empty |
| CatPet.BrokenFileEndsLoading | main.py:58-68 | a happy sprite that exists but cannot be opened stops the loop: only the idle sprite is loaded, though the sleeping one is readable |
| CatPet.UpdateSprite | main.py:97-110 | a loaded sprite for the mood is put on the canvas; otherwise the canvas keeps what it showed; nothing else in the state changes |
| CatPet.InitValid | main.py:12-38 | a new pet is idle, stamped with the start time, has velocities in {-1, 0, 1}, and shows its mood's sprite when all three were loaded |
| CatPet.OnLeftClick | main.py:112-120 | a click makes the pet happy, records the time, keeps velocity and behaviour, and arms `reset_mood` in 2000 ms |
| CatPet.ResetMood | main.py:156-160 | happy becomes idle; idle and sleeping pets are untouched; only mood and picture can change |
| CatPet.MoodCheck | main.py:162-178 | more than 30 s idle puts an awake pet to sleep and stops it; at most 5 s wakes a sleeping one; the mood changes exactly in those two cases, otherwise the state is untouched; always re-arms in 5000 ms |
| CatPet.BehaviorVelocity | main.py:186-198 | each behaviour's velocity: left, right, up, down are unit steps on one axis, 'idle' is still, wander takes the two random picks |
| CatPet.RandomBehavior | main.py:180-201 | a sleeping pet is untouched; an awake one adopts the picked behaviour and its velocity, which stays in {-1, 0, 1}; the re-arm delay is within [3000, 8000] ms |
| CatPet.GeometryRoundTrip | main.py:210-229 | a geometry string the pet writes reads back, split on '+' and through `int`, as the position it wrote |
| CatPet.Bounce | main.py:220-226 | one axis of a tick: an in-range step keeps the velocity; a step at or past an edge negates it and clamps the position to that edge; the result always lies in [0, max(0, limit)] |
| CatPet.UpdatePosition | main.py:203-234 | a sleeping pet, or an unreadable geometry, does not move; an awake pet moves to the position, and takes the velocity, that one `Bounce` per axis gives from the read position; that position is inside the screen minus the 40-pixel task-bar margin; each velocity component keeps its magnitude; always re-arms in 100 ms |
| CatPet.TickBounces | main.py:216-229 | per axis: a step landing strictly inside the screen moves there and keeps the velocity; a step at or past an edge reverses the velocity and stops at that edge |
| CatPet.OnDrag | main.py:146-152 | a drag centres the window on the mouse and records the time |
| CatPet.StepPreserves | main.py:112-234 | every handler keeps velocities in {-1, 0, 1}, keeps a sleeping pet still, keeps the mood's sprite on screen when all three sprites were loaded, and never changes the loaded sprites |
| CatPet.RunPreserves | main.py:112-234 | the same invariants hold after any sequence of events |
| CatPet.SleepPersists | main.py:166-205 | with no click or drag and no mood check within 5 s of the last interaction, a sleeping pet stays asleep and still through any events |
| CatPet.ClickThenReset | main.py:115-160 | a mood check at most 30 s after a click leaves the pet happy, and the reset the click armed then makes it idle |
| CatPet.DragWakesAtNextCheck | main.py:146-178 | dragging a sleeping pet wakes it at the next mood check, which comes at most 5000 ms later |
| CatPet.TickKeepsOnScreen | main.py:210-229 | after a position tick of an awake pet with a readable geometry, the window's geometry reads back as an on-screen position |
| CatPet.DragIsReadBack | main.py:149-151 | the geometry a drag writes is read back by the next tick as the mouse position minus half the window size |
| Strings.JoinSplit | gemini_chat_real.py:251-253 | joining the pieces of a split with the same separator gives back the text |
| Strings.SplitAround | gemini_chat_real.py:251 | splitting at a separator occurrence that no other occurrence overlaps splits each side independently |
| Strings.StripEmpty | gemini_chat_real.py:163-165 | `strip()` is empty exactly when every character is whitespace, so only all-blank input is ignored |
| Strings.StripIdempotent | gemini_chat_real.py:163 | stripping twice is stripping once |
| Strings.ParseIntToString | main.py:213-214 | `int(str(i)) == i` for every integer of at most 4300 digits, negative ones included |
| Strings.IntChar | main.py:213-214 | `int()` reads every character as one below U+007F, keeping those already below it |
| Strings.DigitRewrites | main.py:213-214 | `int()` reads a decimal digit of any script as the ASCII digit of the same value |
| Strings.DecimalDigitValue | main.py:213-214 | every digit of every run of the Unicode digit table has its place in the run as its value |
| Strings.SeparatorRejected | main.py:213-214 | one of U+001C..U+001F anywhere makes `int()` raise |
| Strings.ParseUnicodeDigit | main.py:213-214 | a lone Unicode decimal digit reads as its value |
| Strings.NatToStringInjective | sprite_generator_hd.py:292 | different frame numbers print differently |
| Colors.ParseHexPair | sprite_generator_hd.py:11 | `int(s, 16)` on a slice of at most two characters, read after Python rewrites it to ASCII: two hex digits give their byte, an empty slice raises, any result lies in [-15, 255] |
| Colors.PairSeparatorRejected | sprite_generator_hd.py:11 | a slice holding one of U+001C..U+001F raises, though `strip()` counts them as whitespace |
| Colors.PairUnicodeDigit | sprite_generator_hd.py:11 | a lone Unicode decimal digit of any script reads as its value |
| Colors.ParseArabicThree | sprite_generator_hd.py:11 | ARABIC-INDIC DIGIT THREE reads as 3 |
| Colors.ParseNoBreakSpace | sprite_generator_hd.py:11 | a hex digit followed by NO-BREAK SPACE reads as the digit |
| Colors.StripHashes | sprite_generator_hd.py:10 | `lstrip('#')` removes exactly the leading '#' characters |
| Colors.HexToRgba | cat_sprites.py:45-48 | a parsed colour has alpha 255 and components in [-15, 255]; four or fewer characters after the '#'s never parse |
| Colors.HexColorParses | sprite_generator_hd.py:9-11 | a '#RRGGBB' string parses into the three bytes its digit pairs spell, with alpha 255 |
| Colors.HexRoundTrip | cat_sprites.py:45-48 | parsing the '#RRGGBB' text of a colour gives the colour back, opaque |
| Colors.FiveDigitColor | cat_sprites.py:47-48 | a five-digit colour parses too, its last slice holding one digit: '#FFFFF' is (255, 255, 15, 255) |
| SpriteFiles.WalkNamesDistinct | sprite_generator_hd.py:292 | different walk frames of a breed are saved to different files |
| SpriteFiles.SitIsNotWalk | pop_shop_integrator.py:38-47 | the sitting pose never overwrites a walk frame of the same breed |
| SpriteFiles.FileNameInjective | pop_shop_integrator.py:38-47 | for breeds told apart by their first two letters, two different sprites never share a file |
| Markings.PaintRegion | sprite_generator_hd.py:233-236 | the nested loop over a rectangle applies the pixel rule inside it and leaves every other pixel and the image's shape as they were |
| Markings.AddTuxedoMarkings | sprite_generator_hd.py:228-242 | visible pixels of the chest [50,78)×[60,95) and paws [48,80)×[85,105) become opaque white; the visible set is unchanged; pixels outside both rectangles are untouched |
| Markings.AddSiamesePoints | sprite_generator_hd.py:210-226 | visible ear pixels with red above 200 in rows 10–24 and all visible tail pixels take the point colour; rows 25–29 of the ear scan and everything outside stay; the visible set is unchanged |
| Markings.AddTabbyStripes | sprite_generator_hd.py:244-252 | visible pixels of columns 50, 58, 70 and 78 in rows [25, 85) take the stripe colour; other columns are untouched; with an opaque stripe the visible set is unchanged |
| Markings.TuxedoIdempotent | sprite_generator_hd.py:228-242 | marking a tuxedo twice is marking it once |
| Markings.SiameseIdempotent | sprite_generator_hd.py:210-226 | darkening siamese points twice is doing it once |
| Markings.TabbyIdempotent | sprite_generator_hd.py:244-252 | painting tabby stripes twice is painting them once |
| Markings.PointColorIsParsed | sprite_generator_hd.py:212 | the point colour '#8B4513' is (139, 69, 19, 255) |
| Markings.PaletteColorsAreHex | sprite_generator_hd.py:186-208 | every palette colour is a '#RRGGBB' string, so each parses into three bytes |
| Markings.TabbyStripeIsOpaque | sprite_generator_hd.py:193-197 | the tabby shadow used for stripes is (92, 74, 58, 255), opaque |
| Markings.PawOffsets | sprite_generator_hd.py:125-126 | the two paw offsets are ±5 and opposite, the left one +5 exactly on even frames |
| Markings.PawsAlternate | sprite_generator_hd.py:125-126 | consecutive frames swap the two offsets |
| Markings.ApplyMarkings | sprite_generator_hd.py:266-272 | siamese, tuxedo and tabby get their pass, with the tabby striped in its shadow colour; any other breed is untouched; with an opaque shadow the silhouette is kept |
| Markings.HdOutputsDistinct | sprite_generator_hd.py:262-293 | no sprite is produced twice by the two loops of `main` |
| Markings.HdFilesDistinct | sprite_generator_hd.py:274-293 | the 4 sitting sprites and 24 walk frames are saved to 28 different files |
| CatSprites.PaintSprite | cat_sprites.py:32-37 | the canvas is painted exactly when no cell raises; it is 32×32 with each painted cell's palette colour and transparency elsewhere; otherwise the failure names the first raising cell in row order and why it raised |
| CatSprites.CreateSprite | cat_sprites.py:30-43 | the sprite is produced exactly when no cell raises, with the same failure otherwise; it is 64×64, and pixel (x, y) is the colour of canvas pixel (x / 2, y / 2) |
| Resize.UpscaleRoundTrip | cat_sprites.py:40 | the nearest-neighbour enlargement turns each canvas pixel into a 2×2 block of it, and sampling the blocks gives the canvas back |
| CatSprites.PaintCell | cat_sprites.py:35-37 | one cell: an unpainted cell changes nothing, a painted one sets only its own pixel of its row, and a bad colour or an off-canvas cell is reported, colour first |
| CatSprites.PaletteParses | cat_sprites.py:21-28 | every palette colour parses |
| CatSprites.FittingGridPaints | cat_sprites.py:34-37 | a grid of palette keys no larger than the canvas raises nowhere, and leaves pixels outside it transparent |
| CatSprites.CellPixel | cat_sprites.py:36-37 | a grid cell with no key leaves its pixel transparent; a keyed cell gets the key's palette colour, opaque |
| CatSprites.CreateCatSprites | cat_sprites.py:110-116 | the map has exactly the keys idle, happy and sleep; each sprite is 64×64, pixel (x, y) showing its grid's cell (x / 2, y / 2), and transparent outside the top-left 32×32; the files are sprites/cat_idle.png, cat_happy.png and cat_sleep.png |
| CatSprites.SpritesMatchPet | cat_sprites.py:112-114 | the sprite keys are the pet's mood names, and with the three files present the pet loads all three |
| PopShop.AnalyzeSpritesheet | pop_shop_integrator.py:12-14 | the estimated grid counts the whole 32-pixel sprites across and down |
| PopShop.ExtractWalkFrames | pop_shop_integrator.py:18-29 | exactly `num_frames` boxes, none for a count of zero or less; box i is the cell in column start+i of the row; each box is size×size, in that row, and adjacent to the next |
| PopShop.FramesDisjoint | pop_shop_integrator.py:21-26 | later boxes of a row start at or after the end of earlier ones, so frames never overlap |
| PopShop.SelectWalkFrames | pop_shop_integrator.py:42-43 | six or more frames give the first six; fewer give the frames twice over cut to six, so 2, 4 or 6 of them |
| PopShop.SelectWalkFramesCycles | pop_shop_integrator.py:42-45 | walk frame i is input frame i modulo the input's length |
| PopShop.SaveFrames | pop_shop_integrator.py:31-48 | an empty frame list raises; otherwise the sitting pose is frame 0 and walk frame i is the i-th selected frame, saved in that order |
| PopShop.SavedFilesDistinct | pop_shop_integrator.py:38-47 | one breed's saves never write the same file twice |
| PopShop.BreedOutputs | pop_shop_integrator.py:84-96 | a present breed gets seven files: its sitting pose from the first box of row 4 and walk frame i from column i |
| PopShop.IntegrateFrom | pop_shop_integrator.py:4-5 | the run raises exactly when some sheet exists but does not open, and then at the first such sheet in table order |
| PopShop.IntegrateWrites | pop_shop_integrator.py:59-96 | every breed whose sheet exists and opens and comes before any sheet that does not open has its seven files saved, seven files are saved per such breed and no more, and each saved file belongs to such a breed; missing sheets are skipped |
| PopShop.BrokenSheetEndsIntegration | pop_shop_integrator.py:74-84 | an unreadable tuxedo sheet ends the run after the orange sheet's seven files, though the four sheets after it open |
| Chat.AfterFirst | gemini_chat_real.py:48 | `split(c, 1)[1]` exists exactly when `c` occurs, and is then the text after its first occurrence |
| Chat.AfterFirstSkipsPrefix | gemini_chat_real.py:47-48 | for a line naming the key, `split('=', 1)[1]` is everything after `GEMINI_API_KEY=` |
| Chat.FindKeyLine | gemini_chat_real.py:46-49 | the loop stops at the first line naming the key, or reports that no line does |
| Chat.KeyOfLine | gemini_chat_real.py:48 | the key a matching line holds is its text after the name, stripped |
| Chat.GetApiKey | gemini_chat_real.py:38-53 | a non-empty environment value wins; otherwise the first matching `.env` line gives the key and later ones are ignored; with no match, or no readable file, the environment value stands, even when empty |
| Chat.SetupGemini | gemini_chat_real.py:55-81 | success exactly when the library is present, the key is usable and configuration did not raise; a missing library is reported before a missing key; a configuration error carries its message |
| Chat.Prefix | gemini_chat_real.py:150-155 | the user is labelled "Tu: ", any other sender by its own name |
| Chat.PrefixKeepsName | gemini_chat_real.py:150-155 | a sender keeps its own name in the label exactly when it is not the user |
| Chat.AddMessage | gemini_chat_real.py:145-159 | a message only appends: the old transcript is kept, followed by the label, the message and a blank line |
| Chat.SendMessage | gemini_chat_real.py:161-181 | blank input (after strip) changes nothing; otherwise the stripped text is posted as the user's, followed by the placeholder, the field is cleared and input disabled |
| Chat.UpdateChatResponse | gemini_chat_real.py:246-264 | input is enabled again and the field kept; a transcript without a blank line just gains the reply |
| Chat.ReplyReplacesPlaceholder | gemini_chat_real.py:250-259 | the reply takes the place of the placeholder that follows a message, and the rest of the transcript is unchanged |
| Chat.ExchangeAppends | gemini_chat_real.py:161-259 | sending a non-blank input and receiving a reply leaves exactly the user's stripped message and the reply appended to any transcript, with the field cleared and input enabled again |
| Chat.Classify | gemini_chat_real.py:195-234 | the lowered message is matched against the keyword sets in order: the chosen kind has a keyword in it and no earlier kind has; the generic kind means no keyword at all |
| Chat.Responses | gemini_chat_real.py:196-237 | every kind has at least three replies, so the random choice cannot fail |
| Chat.GetResponse | gemini_chat_real.py:183-244 | offline, the reply is one of the classified kind's replies; online, the API's text; a raised error becomes "Desculpa, ocorreu um erro: " and its message |
| Chat.ClassifiedAs | gemini_chat_real.py:195-234 | the converse of `Classify`'s contract: the first kind mentioned in the lowered message, or the generic kind when none is, is the classification |
| Chat.ThanksForThisIsHello | gemini_chat_real.py:197 | keywords match inside words: "Thanks for this" is answered as a greeting, because "this" contains "hi" |
| Chat.DottedCapitalIGreets | gemini_chat_real.py:195-197 | "H" followed by the dotted capital I (U+0130) lowers to "hi" and a combining dot, so it is a greeting |
| Chat.KelvinSignThanks | gemini_chat_real.py:195-215 | "THAN", the Kelvin sign (U+212A) and "S" lower to "thanks", and the message is a thank-you |
| Strings.LowerAppend | gemini_chat_real.py:195 | `lower()` works character by character: lowering a concatenation concatenates the lowered parts |

## Left out

- Tk is not modelled: windows, canvas drawing, bindings, the `after` queue and `mainloop`. Handlers return their re-arm delay and any window move instead.
- `create_fallback_sprites` (main.py:77-95) draws ellipses. Only the fact that it provides all three sprite names is modelled.
- The right-click chat (`on_right_click`, `open_simple_chat`) is window creation only.
- `setup_window` and `quit` are window set-up and exit.
- Time is modelled in integer milliseconds. The source compares float seconds from `time.time()`: 30 s is 30000 ms and 5 s is 5000 ms.
- The random picks (`random.choice`, `randint`) are parameters constrained to their ranges.
- PIL drawing is left out, along with `crop` pixel content and `save`. Of `Image.open`, only whether it raises is modelled, as a file state: missing, readable or broken. Images are 2-D arrays of RGBA values. Pop Shop frames are crop boxes. `resize` is modelled only for the 2× nearest-neighbour enlargement in cat_sprites.py. Pop Shop's enlargement to 128×128 scales crop boxes whose pixels are not modelled.
- The `math.sin` bounce and tail swing of `create_walk_frame` (sprite_generator_hd.py:111-112) are floating point and only affect drawing.
- `map_breed_colors` (pop_shop_integrator.py:50-57) is never called.
- cat_breeds.py is not part of this model: it is PIL drawing.
- Threads, the Gemini network session and its answers are left out. The answer or the error it raised is a parameter of `GetResponse`.
- Reading `.env` from disk is left out. The file's lines, or its absence, are a parameter.
- The `pip install Pillow` fallback (cat_sprites.py:118-129) is left out.
- `create_chat_window` itself (gemini_chat_real.py:83-143) is widget creation. The opening messages it writes are kept only as the helper `OpeningTranscript`, without a contract.
- Strings.ParseInt does not model underscores between digits, which Python's `int()` accepts. Nor does it model the digit limit: in Python 3.12 `int()` of a string of more than 4300 digits raises `ValueError`, and so does `str()` of such an integer (`sys.int_info.default_max_str_digits`), while Strings.ParseInt and Strings.IntToString have no limit. The strings it is given are ones the pet wrote, window coordinates far shorter than that.
- The table of decimal digit runs, `Strings.DigitZeros`, is that of Unicode 15.0, the version Python 3.12 uses. Other Python versions know a few runs more or fewer.
- Strings.Lower folds ASCII and Latin-1 capitals, the Kelvin sign U+212A and the dotted capital I U+0130, and keeps every other character. Under the Unicode case tables, no other character lowers to a string containing a letter of any keyword, so Chat.Classify agrees with `get_response` on every message.
- Colors.HexToRgba does not model what PIL does with a negative component. That can only come from a malformed colour such as '#-F....', and no colour in the sources is malformed.
- Markings.AddSiamesePoints drops the `colors` argument, because the source never reads it.
- Markings.ApplyMarkings requires an image of at least 115×105. The generator only passes 128×128 images. On a smaller image the siamese, tuxedo and tabby passes would index outside it; other breeds pass through unchanged whatever the size.
- `on_drag`'s `except` branch is left out: reading the mouse position and setting the geometry cannot fail in the model.

=== FILE: catsprites.dfy ===
/** cat_sprites.py: three 16x16 palette-key grids painted onto a
    transparent 32x32 canvas, one per mood of the pet. */
module CatSprites {
  import opened Wrappers
  import opened Colors
  import opened Markings
  import CatPet
  import Files
  import opened Resize

  /** The named colours of the pink cat. */
  const Palette: map<string, string> := map[
    "body" := "#FF69B4",
    "darker" := "#E55A9B",
    "white" := "#FFFFFF",
    "black" := "#000000",
    "eyes" := "#00FF00",
    "nose" := "#FF1493"
  ]

  /** A grid cell: no key (`None`) or a palette key. */
  type Cell = Option<string>
  type Grid = seq<seq<Cell>>

  /** `if color_key and color_key in colors`: a cell is painted when it
      holds a non-empty key that the palette defines. */
  predicate Painted(cell: Cell, palette: map<string, string>) {
    cell.Some? && cell.value != "" && cell.value in palette
  }

  predicate InGrid(grid: Grid, x: int, y: int) {
    0 <= y < |grid| && 0 <= x < |grid[y]|
  }

  /** Why a painted cell fails: its colour is not a hex colour
      (`int(..., 16)` raises), or it lies outside the canvas (`putpixel`
      raises). The colour is converted before the pixel is put. */
  datatype Problem = BadColor | OutsideCanvas
  datatype Failure = Failure(x: nat, y: nat, problem: Problem)

  /** The problem a cell raises, if any. */
  function CellProblem(grid: Grid, palette: map<string, string>, x: int, y: int): Option<Problem>
    requires InGrid(grid, x, y)
  {
    var cell := grid[y][x];
    if !Painted(cell, palette) then None
    else if HexToRgba(palette[cell.value]).None? then Some(BadColor)
    else if x >= Size || y >= Size then Some(OutsideCanvas)
    else None
  }

  /** The colour the finished canvas holds at (x, y). */
  function SpritePixel(grid: Grid, palette: map<string, string>, x: int, y: int): Rgba {
    if InGrid(grid, x, y) && Painted(grid[y][x], palette) && HexToRgba(palette[grid[y][x].value]).Some?
    then HexToRgba(palette[grid[y][x].value]).value
    else Transparent
  }

  /** Cell (x', y') comes before (x, y) in the painting order. */
  predicate Before(x': int, y': int, x: int, y: int) {
    y' < y || (y' == y && x' < x)
  }

  /** A transparent canvas row. */
  function BlankRow(): (line: seq<Rgba>)
    ensures |line| == Size && forall x :: 0 <= x < Size ==> line[x] == Transparent
  {
    seq(Size, _ => Transparent)
  }

  /** Row `y` of the finished canvas. */
  function RowPixels(grid: Grid, palette: map<string, string>, y: int): (line: seq<Rgba>)
    ensures |line| == Size
  {
    seq(Size, x requires 0 <= x < Size => SpritePixel(grid, palette, x, y))
  }

  /** The canvas holds the finished rows above `y` and is transparent
      from row `y` down. */
  predicate PaintedAbove(canvas: Image, grid: Grid, palette: map<string, string>, y: int) {
    |canvas| == Size
    && forall yy :: 0 <= yy < Size ==> canvas[yy] == (if yy < y then RowPixels(grid, palette, yy) else BlankRow())
  }

  /** The painting loop of `create_sprite`: start from a transparent
      canvas, put each painted cell's colour at its coordinates, row by
      row; fail at the first cell that raises. */
  method PaintSprite(grid: Grid, palette: map<string, string>) returns (r: Result<Image, Failure>)
    ensures r.Ok? <==> forall y, x :: InGrid(grid, x, y) ==> CellProblem(grid, palette, x, y).None?
    ensures r.Ok? ==> Canvas(r.value)
    ensures r.Ok? ==> forall y, x :: 0 <= y < Size && 0 <= x < Size ==> r.value[y][x] == SpritePixel(grid, palette, x, y)
    ensures r.Err? ==> (InGrid(grid, r.error.x, r.error.y)
      && CellProblem(grid, palette, r.error.x, r.error.y) == Some(r.error.problem)
      && forall y, x :: InGrid(grid, x, y) && Before(x, y, r.error.x, r.error.y) ==> CellProblem(grid, palette, x, y).None?)
  {
    var canvas := seq(Size, _ => BlankRow());
    var y := 0;
    while y < |grid|
      invariant 0 <= y <= |grid|
      invariant PaintedAbove(canvas, grid, palette, y)
      invariant forall yy, xx :: InGrid(grid, xx, yy) && yy < y ==> CellProblem(grid, palette, xx, yy).None?
    {
      var line, failure := PaintRow(grid, palette, y);
      if failure.Some? {
        FailsFirstAt(grid, palette, failure.value, y);
        return Err(failure.value);
      }
      PaintedStep(canvas, grid, palette, y, line);
      if y < Size {
        canvas := canvas[y := line];
      }
      RowsCleanStep(grid, palette, y);
      y := y + 1;
    }
    PaintedAll(canvas, grid, palette);
    r := Ok(canvas);
  }

  /** Row `y`, once painted, joins the finished rows; a row past the
      canvas changes nothing. */
  lemma PaintedStep(canvas: Image, grid: Grid, palette: map<string, string>, y: nat, line: seq<Rgba>)
    requires PaintedAbove(canvas, grid, palette, y) && line == RowPixels(grid, palette, y)
    ensures y < Size ==> PaintedAbove(canvas[y := line], grid, palette, y + 1)
    ensures Size <= y ==> PaintedAbove(canvas, grid, palette, y + 1)
  {
  }

  /** A clean row extends the clean rows above it by one. */
  lemma RowsCleanStep(grid: Grid, palette: map<string, string>, y: nat)
    requires y < |grid|
    requires forall yy, xx :: InGrid(grid, xx, yy) && yy < y ==> CellProblem(grid, palette, xx, yy).None?
    requires forall xx :: InGrid(grid, xx, y) ==> CellProblem(grid, palette, xx, y).None?
    ensures forall yy, xx :: InGrid(grid, xx, yy) && yy < y + 1 ==> CellProblem(grid, palette, xx, yy).None?
  {
  }

  /** A failure in row `y`, with every earlier row clean, is the first
      raising cell in painting order. */
  lemma FailsFirstAt(grid: Grid, palette: map<string, string>, f: Failure, y: nat)
    requires f.y == y && InGrid(grid, f.x, y)
    requires forall yy, xx :: InGrid(grid, xx, yy) && yy < y ==> CellProblem(grid, palette, xx, yy).None?
    requires forall xx :: InGrid(grid, xx, y) && xx < f.x ==> CellProblem(grid, palette, xx, y).None?
    ensures forall yy, xx :: InGrid(grid, xx, yy) && Before(xx, yy, f.x, f.y) ==> CellProblem(grid, palette, xx, yy).None?
  {
  }

  /** Once every row is painted, the canvas holds the sprite's colours. */
  lemma PaintedAll(canvas: Image, grid: Grid, palette: map<string, string>)
    requires PaintedAbove(canvas, grid, palette, |grid|)
    ensures Canvas(canvas)
    ensures forall y, x :: 0 <= y < Size && 0 <= x < Size ==> canvas[y][x] == SpritePixel(grid, palette, x, y)
  {
    forall y, x | 0 <= y < Size && 0 <= x < Size
      ensures canvas[y][x] == SpritePixel(grid, palette, x, y)
    {
      if |grid| <= y {
        assert !InGrid(grid, x, y);
      }
    }
  }

  /** The inner loop of `create_sprite`: paint row `y` left to right, or
      stop at its first cell that raises. */
  method PaintRow(grid: Grid, palette: map<string, string>, y: nat) returns (line: seq<Rgba>, failure: Option<Failure>)
    requires y < |grid|
    ensures failure.None? ==> (line == RowPixels(grid, palette, y)
      && forall xx :: InGrid(grid, xx, y) ==> CellProblem(grid, palette, xx, y).None?)
    ensures failure.Some? ==> (failure.value.y == y && InGrid(grid, failure.value.x, y)
      && CellProblem(grid, palette, failure.value.x, y) == Some(failure.value.problem)
      && forall xx :: InGrid(grid, xx, y) && xx < failure.value.x ==> CellProblem(grid, palette, xx, y).None?)
  {
    line := BlankRow();
    var x := 0;
    while x < |grid[y]|
      invariant 0 <= x <= |grid[y]|
      invariant |line| == Size
      invariant forall xx :: InGrid(grid, xx, y) && xx < x ==> CellProblem(grid, palette, xx, y).None?
      invariant forall xx :: 0 <= xx < Size ==> line[xx] == (if xx < x then SpritePixel(grid, palette, xx, y) else Transparent)
    {
      var problem;
      line, problem := PaintCell(line, grid, palette, x, y);
      if problem.Some? {
        return line, Some(Failure(x, y, problem.value));
      }
      CleanStep(grid, palette, x, y);
      x := x + 1;
    }
    forall xx | 0 <= xx < Size
      ensures line[xx] == RowPixels(grid, palette, y)[xx]
    {
      if |grid[y]| <= xx {
        assert !InGrid(grid, xx, y);
      }
    }
    failure := None;
  }

  /** A clean cell extends the clean prefix of its row by one. */
  lemma CleanStep(grid: Grid, palette: map<string, string>, x: nat, y: nat)
    requires InGrid(grid, x, y) && CellProblem(grid, palette, x, y).None?
    requires forall xx :: InGrid(grid, xx, y) && xx < x ==> CellProblem(grid, palette, xx, y).None?
    ensures forall xx :: InGrid(grid, xx, y) && xx < x + 1 ==> CellProblem(grid, palette, xx, y).None?
  {
  }

  /** `create_sprite`: the painted canvas, resized to 64x64. The image
      returned, and saved, shows at (x, y) the canvas pixel
      (x / 2, y / 2). */
  method CreateSprite(grid: Grid, palette: map<string, string>) returns (r: Result<Image, Failure>)
    ensures r.Ok? <==> forall y, x :: InGrid(grid, x, y) ==> CellProblem(grid, palette, x, y).None?
    ensures r.Ok? ==> Final(r.value)
    ensures r.Ok? ==> forall y, x :: 0 <= y < FinalSize && 0 <= x < FinalSize ==>
      r.value[y][x] == SpritePixel(grid, palette, x / Scale, y / Scale)
    ensures r.Err? ==> (InGrid(grid, r.error.x, r.error.y)
      && CellProblem(grid, palette, r.error.x, r.error.y) == Some(r.error.problem)
      && forall y, x :: InGrid(grid, x, y) && Before(x, y, r.error.x, r.error.y) ==> CellProblem(grid, palette, x, y).None?)
  {
    var painted := PaintSprite(grid, palette);
    match painted
    case Err(e) => r := Err(e);
    case Ok(canvas) => r := Ok(Upscale(canvas));
  }

  /** One step of the loop: put the colour of cell (x, y), if it is
      painted, into row `y` of the canvas, or report the problem it
      raises. */
  method PaintCell(line: seq<Rgba>, grid: Grid, palette: map<string, string>, x: nat, y: nat)
    returns (out: seq<Rgba>, problem: Option<Problem>)
    requires |line| == Size && InGrid(grid, x, y)
    requires x < Size ==> line[x] == Transparent
    ensures problem == CellProblem(grid, palette, x, y)
    ensures problem.None? ==> (|out| == Size
      && (x < Size ==> out[x] == SpritePixel(grid, palette, x, y))
      && forall xx :: 0 <= xx < Size && xx != x ==> out[xx] == line[xx])
  {
    out := line;
    problem := None;
    var cell := grid[y][x];
    if Painted(cell, palette) {
      var color := HexToRgba(palette[cell.value]);
      if color.None? {
        problem := Some(BadColor);
      } else if x >= Size || y >= Size {
        problem := Some(OutsideCanvas);
      } else {
        out := line[x := color.value];
      }
    }
  }

  // ---------------------------------------------------------------------
  // the three grids

  /** A grid row written one character per cell: '.' for no key, and
      b(ody), w(hite), k (black), e(yes), n(ose) for palette keys. */
  function KeyOf(c: char): (cell: Cell)
    ensures cell.None? || cell.value in Palette
  {
    match c
    case 'b' => Some("body")
    case 'w' => Some("white")
    case 'k' => Some("black")
    case 'e' => Some("eyes")
    case 'n' => Some("nose")
    case _ => None
  }

  function Decode(rows: seq<string>): (grid: Grid)
    ensures |grid| == |rows|
    ensures forall y :: 0 <= y < |rows| ==> |grid[y]| == |rows[y]|
    ensures forall y, x :: 0 <= y < |rows| && 0 <= x < |rows[y]| ==> grid[y][x] == KeyOf(rows[y][x])
  {
    seq(|rows|, y requires 0 <= y < |rows| => seq(|rows[y]|, x requires 0 <= x < |rows[y]| => KeyOf(rows[y][x])))
  }

  const IdleRows: seq<string> := [
    "................",
    "................",
    "....bbbbbb......",
    "...bbbbbbbb.....",
    "..bbwkbbkwbb....",
    "..bbekbbkebb....",
    "..bbbbnnbbbb....",
    "..bbbkkkkbbb....",
    "...bbbbbbbb.....",
    "....bbbbbb......",
    "................",
    "................",
    "................",
    "................",
    "................",
    "................"
  ]

  const HappyRows: seq<string> := [
    "................",
    "................",
    "....bbbbbb......",
    "...bbbbbbbb.....",
    "..bbwkbbkwbb....",
    "..bbkebbekbb....",
    "..bbbbnnbbbb....",
    "..bbkbkkbkbb....",
    "...bbkkkkbb.....",
    "....bbbbbb......",
    "................",
    "................",
    "................",
    "................",
    "................",
    "................"
  ]

  const SleepRows: seq<string> := [
    "................",
    "................",
    "....bbbbbb......",
    "...bbbbbbbb.....",
    "..bbwwbbwwbb....",
    "..bbkkbbkkbb....",
    "..bbbbnnbbbb....",
    "..bbbbkkbbbb....",
    "...bbbbbbbb.....",
    "....bbbbbb......",
    "................",
    "................",
    "................",
    "................",
    "................",
    "................"
  ]

  /** Every colour of the palette is a '#RRGGBB' string, so it parses. */
  lemma PaletteParses()
    ensures forall k :: k in Palette ==> HexToRgba(Palette[k]).Some?
  {
    forall k | k in Palette
      ensures HexToRgba(Palette[k]).Some?
    {
      var s := Palette[k];
      assert IsHexColor(s) by {
        assert forall i :: 1 <= i < 7 ==> IsHexDigit(s[i]);
      }
      HexColorParses(s);
    }
  }

  /** A grid of palette keys that fits in the canvas paints without
      raising, and leaves every pixel it does not cover transparent. */
  lemma FittingGridPaints(rows: seq<string>)
    requires |rows| <= Size && forall y :: 0 <= y < |rows| ==> |rows[y]| <= Size
    ensures forall y, x :: InGrid(Decode(rows), x, y) ==> CellProblem(Decode(rows), Palette, x, y).None?
    ensures forall y, x :: !InGrid(Decode(rows), x, y) ==> SpritePixel(Decode(rows), Palette, x, y) == Transparent
  {
    var grid := Decode(rows);
    forall y, x | InGrid(grid, x, y)
      ensures CellProblem(grid, Palette, x, y).None?
    {
      var cell := grid[y][x];
      assert cell == KeyOf(rows[y][x]);
      if Painted(cell, Palette) {
        assert HexToRgba(Palette[cell.value]).Some? by {
          PaletteParses();
        }
      }
    }
  }

  /** A cell holding no key or a palette key paints nothing or that
      key's opaque colour. */
  lemma KeyedPixel(grid: Grid, x: int, y: int)
    requires InGrid(grid, x, y) && (grid[y][x].None? || grid[y][x].value in Palette)
    ensures grid[y][x].None? ==> SpritePixel(grid, Palette, x, y) == Transparent
    ensures grid[y][x].Some? ==>
      Some(SpritePixel(grid, Palette, x, y)) == HexToRgba(Palette[grid[y][x].value])
      && SpritePixel(grid, Palette, x, y).a == 255
  {
    var cell := grid[y][x];
    if cell.Some? {
      var k := cell.value;
      assert k != "" && Painted(cell, Palette);
      assert HexToRgba(Palette[k]).Some? by {
        PaletteParses();
      }
    }
  }

  /** The pixel a grid puts at (x, y), for a cell inside it: transparent
      for no key, the key's opaque palette colour otherwise. */
  lemma CellPixel(rows: seq<string>, x: nat, y: nat)
    requires y < |rows| && x < |rows[y]|
    ensures KeyOf(rows[y][x]).None? ==> SpritePixel(Decode(rows), Palette, x, y) == Transparent
    ensures KeyOf(rows[y][x]).Some? ==>
      Some(SpritePixel(Decode(rows), Palette, x, y)) == HexToRgba(Palette[KeyOf(rows[y][x]).value])
      && SpritePixel(Decode(rows), Palette, x, y).a == 255
  {
    var grid := Decode(rows);
    assert grid[y][x] == KeyOf(rows[y][x]);
    KeyedPixel(grid, x, y);
  }

  /** `create_cat_sprites`: one sprite per mood key, saved as
      `sprites/cat_<key>.png`. */
  method CreateCatSprites() returns (sprites: map<string, Image>, saved: seq<string>)
    ensures sprites.Keys == {"idle", "happy", "sleep"}
    ensures Final(sprites["idle"]) && Final(sprites["happy"]) && Final(sprites["sleep"])
    ensures forall y, x :: 0 <= y < FinalSize && 0 <= x < FinalSize ==>
      sprites["idle"][y][x] == SpritePixel(Decode(IdleRows), Palette, x / Scale, y / Scale)
      && sprites["happy"][y][x] == SpritePixel(Decode(HappyRows), Palette, x / Scale, y / Scale)
      && sprites["sleep"][y][x] == SpritePixel(Decode(SleepRows), Palette, x / Scale, y / Scale)
    ensures forall y, x :: 0 <= y < FinalSize && 0 <= x < FinalSize && (32 <= x || 32 <= y) ==>
      sprites["idle"][y][x] == Transparent && sprites["happy"][y][x] == Transparent && sprites["sleep"][y][x] == Transparent
    ensures saved == ["sprites/cat_idle.png", "sprites/cat_happy.png", "sprites/cat_sleep.png"]
  {
    var idle := PaintRows(IdleRows);
    var happy := PaintRows(HappyRows);
    var sleep := PaintRows(SleepRows);
    sprites := map["idle" := idle, "happy" := happy, "sleep" := sleep];
    saved := ["sprites/cat_idle.png", "sprites/cat_happy.png", "sprites/cat_sleep.png"];
  }

  /** One call of `create_sprite` on a 16x16 grid of palette keys: it
      cannot fail, and the saved image is transparent outside the grid's
      32x32 enlargement. */
  method PaintRows(rows: seq<string>) returns (img: Image)
    requires |rows| == 16 && forall y :: 0 <= y < |rows| ==> |rows[y]| == 16
    ensures Final(img)
    ensures forall y, x :: 0 <= y < FinalSize && 0 <= x < FinalSize ==>
      img[y][x] == SpritePixel(Decode(rows), Palette, x / Scale, y / Scale)
    ensures forall y, x :: 0 <= y < FinalSize && 0 <= x < FinalSize && (32 <= x || 32 <= y) ==> img[y][x] == Transparent
  {
    FittingGridPaints(rows);
    var r := CreateSprite(Decode(rows), Palette);
    img := r.value;
    forall y, x | 0 <= y < FinalSize && 0 <= x < FinalSize && (32 <= x || 32 <= y)
      ensures img[y][x] == Transparent
    {
      assert !InGrid(Decode(rows), x / Scale, y / Scale);
    }
  }

  /** The sprites are keyed by the pet's mood names, and the names saved
      are the ones the pet loads: with all three files present the pet
      loads every sprite and so always shows its mood's picture. */
  lemma SpritesMatchPet()
    ensures forall m: CatPet.Mood :: CatPet.MoodName(m) in {"idle", "happy", "sleep"}
    ensures forall m: CatPet.Mood :: CatPet.SpriteName(m) == "cat_" + CatPet.MoodName(m)
    ensures {"cat_idle", "cat_happy", "cat_sleep"} == CatPet.SpriteNames
    ensures CatPet.LoadSprites(true, [Files.Readable, Files.Readable, Files.Readable]) == CatPet.SpriteNames
  {
    forall m: CatPet.Mood
      ensures CatPet.MoodName(m) in {"idle", "happy", "sleep"} && CatPet.SpriteName(m) == "cat_" + CatPet.MoodName(m)
    {
      assert CatPet.SpriteName(m)[4..] == CatPet.MoodName(m);
      assert CatPet.SpriteName(m)[..4] == "cat_";
      assert CatPet.SpriteName(m) == CatPet.SpriteName(m)[..4] + CatPet.SpriteName(m)[4..];
    }
  }
}

=== FILE: chat.dfy ===
/** gemini_chat_real.py without its window, threads and network: where the
    API key comes from, the order in which setup reports problems, how
    messages are written into the transcript, and how the offline
    fallback picks a kind of reply.

    The transcript is the text of the chat area. A Tk text widget always
    holds one more newline than was inserted, and reading it back returns
    that newline too; the model keeps the inserted text and adds the
    newline where the widget is read. */
module Chat {
  import opened Wrappers
  import opened Strings

  // ---------------------------------------------------------------------
  // the API key

  /** The name a `.env` line must start with to hold the key. */
  const KeyPrefix := "GEMINI_API_KEY="

  /** A value `if not api_key` lets through: present and non-empty. */
  predicate Usable(value: Option<string>) {
    value.Some? && value.value != ""
  }

  /** `s.split(c, 1)[1]`: the text after the first `c`, if there is one. */
  function AfterFirst(s: string, c: char): (r: Option<string>)
    ensures r.Some? <==> c in s
    ensures r.Some? ==> exists i :: 0 <= i < |s| && s[i] == c && c !in s[..i] && r.value == s[i + 1..]
  {
    if |s| == 0 then None
    else if s[0] == c then
      assert s[..0] == [];
      Some(s[1..])
    else
      var r := AfterFirst(s[1..], c);
      assert c in s <==> c in s[1..] by {
        assert s == [s[0]] + s[1..];
      }
      if r.Some? then
        var i :| 0 <= i < |s[1..]| && s[1..][i] == c && c !in s[1..][..i] && r.value == s[1..][i + 1..];
        assert s[..i + 1] == [s[0]] + s[1..][..i];
        assert s[i + 1] == c && s[i + 2..] == r.value;
        r
      else r
  }

  /** For a line naming the key, that is everything after the name: the
      name itself has no '=' before its last character. */
  lemma {:induction false} AfterFirstSkipsPrefix(line: string, k: nat)
    requires StartsWith(line, KeyPrefix) && k < |KeyPrefix|
    ensures AfterFirst(line[k..], '=') == Some(line[|KeyPrefix|..])
    decreases |KeyPrefix| - k
  {
    assert line[k] == KeyPrefix[k];
    if k < |KeyPrefix| - 1 {
      assert line[k] != '=';
      assert line[k..][1..] == line[k + 1..];
      AfterFirstSkipsPrefix(line, k + 1);
    }
  }

  /** Line `i` is the first line that names the key. */
  predicate FirstKeyLine(lines: seq<string>, i: int) {
    0 <= i < |lines| && StartsWith(lines[i], KeyPrefix)
    && forall j :: 0 <= j < i ==> !StartsWith(lines[j], KeyPrefix)
  }

  /** The `for line in f` loop: the index of the first line naming the
      key, if any line does. */
  method FindKeyLine(lines: seq<string>) returns (found: Option<nat>)
    ensures found.Some? ==> FirstKeyLine(lines, found.value)
    ensures found.None? ==> forall i :: 0 <= i < |lines| ==> !StartsWith(lines[i], KeyPrefix)
  {
    var i := 0;
    while i < |lines|
      invariant 0 <= i <= |lines|
      invariant forall j :: 0 <= j < i ==> !StartsWith(lines[j], KeyPrefix)
    {
      if StartsWith(lines[i], KeyPrefix) {
        return Some(i);
      }
      i := i + 1;
    }
    return None;
  }

  /** There is only one first line. */
  lemma FirstKeyLineUnique(lines: seq<string>, i: int, j: int)
    requires FirstKeyLine(lines, i) && FirstKeyLine(lines, j)
    ensures i == j
  {
  }

  /** The key a line naming it holds: the text after its first '=', stripped. */
  function KeyOfLine(line: string): (key: string)
    requires StartsWith(line, KeyPrefix)
    ensures key == Strip(line[|KeyPrefix|..])
  {
    AfterFirstSkipsPrefix(line, 0);
    assert line[0..] == line;
    Strip(AfterFirst(line, '=').value)
  }

  /** `get_api_key`: a usable environment value wins; otherwise the first
      line of `.env` (if the file could be read) that starts with the
      key's name gives the rest of that line, stripped, and later lines
      are ignored; with no such line the environment value stands, even
      when it is empty. */
  method GetApiKey(env: Option<string>, dotenv: Option<seq<string>>) returns (key: Option<string>)
    ensures Usable(env) ==> key == env
    ensures !Usable(env) && (dotenv.None? || forall i :: 0 <= i < |dotenv.value| ==> !StartsWith(dotenv.value[i], KeyPrefix))
      ==> key == env
    ensures !Usable(env) && dotenv.Some? ==>
      forall i :: FirstKeyLine(dotenv.value, i) ==> key == Some(Strip(dotenv.value[i][|KeyPrefix|..]))
  {
    key := env;
    if !Usable(env) && dotenv.Some? {
      var lines := dotenv.value;
      var found := FindKeyLine(lines);
      if found.Some? {
        var i := found.value;
        key := Some(KeyOfLine(lines[i]));
        forall j | FirstKeyLine(lines, j)
          ensures key == Some(Strip(lines[j][|KeyPrefix|..]))
        {
          FirstKeyLineUnique(lines, i, j);
        }
      }
    }
  }

  // ---------------------------------------------------------------------
  // setup

  const NotInstalled := "google-generativeai não instalado"
  const NoKey := "API key não configurada"
  const Configured := "Gemini configurado com sucesso"
  const ConfigFailedPrefix := "Erro ao configurar Gemini: "

  datatype Setup = Setup(ok: bool, message: string)

  /** `setup_gemini`. `configure` is what configuring the library did:
      `None` when it succeeded, `Some(e)` when it raised `e`. A missing
      library is reported before a missing key, and configuration is
      only tried with both present. */
  function SetupGemini(available: bool, key: Option<string>, configure: Option<string>): (s: Setup)
    ensures s.ok <==> available && Usable(key) && configure.None?
    ensures !available ==> s.message == NotInstalled
    ensures available && !Usable(key) ==> s.message == NoKey
    ensures available && Usable(key) && configure.Some? ==> s.message == ConfigFailedPrefix + configure.value
    ensures s.ok ==> s.message == Configured
  {
    if !available then Setup(false, NotInstalled)
    else if !Usable(key) then Setup(false, NoKey)
    else match configure
      case None => Setup(true, Configured)
      case Some(e) => Setup(false, ConfigFailedPrefix + e)
  }

  // ---------------------------------------------------------------------
  // the transcript

  const User := "Você"
  const Cat := "GeminiCat"
  const Separator := "\n\n"

  /** The label written before a message: the user appears as "Tu", any
      other sender under its own name. */
  function Prefix(sender: string): (p: string)
    ensures sender == User ==> p == "Tu: "
    ensures sender != User ==> p == sender + ": "
  {
    if sender == User then "Tu: "
    else if sender == Cat then "GeminiCat: "
    else sender + ": "
  }

  /** Only the user's label is renamed. */
  lemma PrefixKeepsName(sender: string)
    ensures Prefix(sender) == sender + ": " <==> sender != User
  {
    if sender == User {
      assert |Prefix(sender)| != |sender + ": "|;
    }
  }

  /** `add_message`: the label, the message and a blank line go at the end. */
  function AddMessage(transcript: string, sender: string, message: string): (t: string)
    ensures |t| > |transcript| && t[..|transcript|] == transcript
    ensures t[|transcript|..] == Prefix(sender) + message + Separator
  {
    transcript + Prefix(sender) + message + Separator
  }

  /** The chat as the widgets hold it: the transcript, the input field and
      whether input is accepted. */
  datatype ChatState = ChatState(transcript: string, input: string, enabled: bool)

  const Thinking := "A processar..."

  /** `send_message`: a blank input (after strip) is ignored and left in
      the field; otherwise the stripped text is written as the user's,
      followed by the cat's "A processar..." placeholder, the field is
      cleared and input is held until the reply. The second component is
      the message handed to the responder. */
  function SendMessage(st: ChatState): (r: (ChatState, Option<string>))
    ensures Strip(st.input) == "" <==> r.1.None?
    ensures r.1.None? ==> r.0 == st
    ensures r.1.Some? ==> (r.1.value == Strip(st.input)
      && r.0 == ChatState(AddMessage(AddMessage(st.transcript, User, r.1.value), Cat, Thinking), "", false))
  {
    var message := Strip(st.input);
    if message == "" then (st, None)
    else (ChatState(AddMessage(AddMessage(st.transcript, User, message), Cat, Thinking), "", false), Some(message))
  }

  /** `update_chat_response`: read the widget (with its extra newline),
      split it at blank lines, drop the last two pieces when there is more
      than one, end with a blank line, then add the reply and accept input
      again. */
  function UpdateChatResponse(st: ChatState, reply: string): (r: ChatState)
    ensures r.enabled && r.input == st.input
    ensures |Split(st.transcript + "\n", Separator)| <= 1 ==> r.transcript == AddMessage(st.transcript, Cat, reply)
  {
    var pieces := Split(st.transcript + "\n", Separator);
    var kept := if |pieces| > 1 then Join(pieces[..|pieces| - 2], Separator) + Separator else st.transcript;
    ChatState(AddMessage(kept, Cat, reply), st.input, true)
  }

  /** The placeholder has no line break, so no blank line inside it. */
  lemma ThinkingHasNoBreak()
    ensures Split(Prefix(Cat) + Thinking, Separator) == [Prefix(Cat) + Thinking]
  {
    var l := Prefix(Cat) + Thinking;
    assert l == "GeminiCat: A processar...";
    forall i | 0 <= i < |l|
      ensures !StartsWith(l[i..], Separator)
    {
      assert l[i..][0] == l[i] != '\n';
    }
    SplitWithoutSep(l, Separator);
  }

  /** A blank line right after text that does not end in a line break
      is a clean cut: both sides split on their own. */
  lemma SplitAfterText(p: string, rest: string)
    requires |p| > 0 && p[|p| - 1] != '\n'
    ensures Split(p + Separator + rest, Separator) == Split(p, Separator) + Split(rest, Separator)
  {
    forall i | 0 <= i < |p| < i + |Separator|
      ensures !StartsWith((p + Separator + rest)[i..], Separator)
    {
      assert (p + Separator + rest)[i..][0] == p[|p| - 1];
    }
    SplitAround(p, Separator, rest);
  }

  /** The placeholder, a blank line and the widget's newline split into
      the placeholder and the newline. */
  lemma PlaceholderPieces()
    ensures Split(Prefix(Cat) + Thinking + Separator + "\n", Separator) == [Prefix(Cat) + Thinking, "\n"]
  {
    var l := Prefix(Cat) + Thinking;
    assert l[|l| - 1] == '.';
    SplitAfterText(l, "\n");
    ThinkingHasNoBreak();
    SplitWithoutSep("\n", Separator);
  }

  /** The reply replaces the placeholder that follows a message. */
  lemma ReplyReplacesPlaceholder(p: string, input: string, reply: string)
    requires |p| > 0 && p[|p| - 1] != '\n'
    ensures UpdateChatResponse(ChatState(p + Separator + (Prefix(Cat) + Thinking) + Separator, input, false), reply)
      == ChatState(p + Separator + "GeminiCat: " + reply + Separator, input, true)
  {
    var l := Prefix(Cat) + Thinking;
    var t := p + Separator + l + Separator;
    assert t + "\n" == p + Separator + (l + Separator + "\n");
    SplitAfterText(p, l + Separator + "\n");
    PlaceholderPieces();
    var pieces := Split(t + "\n", Separator);
    assert pieces[..|pieces| - 2] == Split(p, Separator);
    JoinSplit(p, Separator);
  }

  /** A whole exchange: whatever the transcript held, sending a non-blank
      input and then receiving a reply leaves exactly the user's stripped
      message and the reply appended; the placeholder is gone. */
  lemma ExchangeAppends(transcript: string, input: string, reply: string)
    requires Strip(input) != ""
    ensures SendMessage(ChatState(transcript, input, true)).1 == Some(Strip(input))
    ensures UpdateChatResponse(SendMessage(ChatState(transcript, input, true)).0, reply)
      == ChatState(transcript + "Tu: " + Strip(input) + Separator + "GeminiCat: " + reply + Separator, "", true)
  {
    var m := Strip(input);
    var p := transcript + "Tu: " + m;
    SentForm(transcript, input);
    assert p[|p| - 1] != '\n' by {
      assert p[|p| - 1] == m[|m| - 1] && !IsSpace(m[|m| - 1]);
    }
    ReplyReplacesPlaceholder(p, "", reply);
  }

  /** What sending a non-blank input leaves in the widgets. */
  lemma SentForm(transcript: string, input: string)
    requires Strip(input) != ""
    ensures SendMessage(ChatState(transcript, input, true))
      == (ChatState(transcript + "Tu: " + Strip(input) + Separator + (Prefix(Cat) + Thinking) + Separator, "", false), Some(Strip(input)))
  {
    var m := Strip(input);
    assert AddMessage(AddMessage(transcript, User, m), Cat, Thinking)
      == transcript + "Tu: " + m + Separator + (Prefix(Cat) + Thinking) + Separator;
  }

  // ---------------------------------------------------------------------
  // opening the window

  const Greeting := "Olá! Sou o GeminiCat, o teu assistente virtual. Em que posso ajudar-te?"
  const Fallback := "Sem acesso ao Gemini, mas posso ainda assim tentar ajudar-te com respostas básicas."
  const Warning := "\U{26A0}\U{FE0F} "

  /** The messages `create_chat_window` writes after setup: a greeting
      when setup succeeded, otherwise the system's warning with setup's
      message followed by the cat's offline notice. */
  function OpeningTranscript(setup: Setup): string {
    if setup.ok then AddMessage("", Cat, Greeting)
    else AddMessage(AddMessage("", "Sistema", Warning + setup.message), Cat, Fallback)
  }

  // ---------------------------------------------------------------------
  // replies

  /** The kinds of offline reply, in the order their keywords are tried. */
  datatype Topic = Hello | Status | Help | Thanks | Time | Other

  function Rank(t: Topic): nat {
    match t
    case Hello => 0
    case Status => 1
    case Help => 2
    case Thanks => 3
    case Time => 4
    case Other => 5
  }

  function Keywords(t: Topic): seq<string> {
    match t
    case Hello => ["oi", "olá", "hello", "hi"]
    case Status => ["como", "está", "vai"]
    case Help => ["ajuda", "help", "socorro"]
    case Thanks => ["obrigado", "thanks", "graças"]
    case Time => ["tempo", "hora", "horas"]
    case Other => []
  }

  /** Some keyword of `t` occurs anywhere in `text`, even inside a word. */
  predicate Mentions(text: string, t: Topic) {
    exists i :: 0 <= i < |Keywords(t)| && Contains(text, Keywords(t)[i])
  }

  /** The offline classifier: the message is lowered, and the first topic
      in order with a keyword in it wins; with none, the reply is generic. */
  function Classify(message: string): (t: Topic)
    ensures t != Other ==> Mentions(Lower(message), t)
    ensures forall u: Topic :: Rank(u) < Rank(t) ==> !Mentions(Lower(message), u)
  {
    var text := Lower(message);
    if Mentions(text, Hello) then Hello
    else if Mentions(text, Status) then Status
    else if Mentions(text, Help) then Help
    else if Mentions(text, Thanks) then Thanks
    else if Mentions(text, Time) then Time
    else Other
  }

  /** The replies of each kind; one is picked at random. */
  function Responses(t: Topic): (rs: seq<string>)
    ensures |rs| >= 3
  {
    match t
    case Hello => ["Olá! Como posso ajudar-te?", "Bom dia! O que precisas?", "Olá! Em que posso ser útil?"]
    case Status => ["Estou a funcionar correctamente.", "Tudo bem por aqui. E contigo?", "A funcionar normalmente."]
    case Help => ["Diz-me em que precisas de ajuda.", "Explica o problema que tens.", "Como posso ajudar-te?"]
    case Thanks => ["De nada!", "Não tens de quê.", "Sempre às ordens."]
    case Time => ["Não tenho acesso ao relógio do sistema.", "Verifica as horas na barra de tarefas.", "Usa o relógio do sistema."]
    case Other => [
      "Entendo. Podes ser mais específico?",
      "Não tenho informação sobre isso.",
      "Explica melhor a tua pergunta.",
      "Preciso de mais detalhes.",
      "Reformula a pergunta, por favor."
    ]
  }

  const ErrorPrefix := "Desculpa, ocorreu um erro: "

  /** `get_response`. `online` is `None` when there is no chat session or
      library, and otherwise what the network call gave: the answer's
      text, or the error it raised. `pick` is the random choice. */
  function GetResponse(online: Option<Result<string, string>>, message: string, pick: nat): (reply: string)
    requires online.None? ==> pick < |Responses(Classify(message))|
    ensures online.None? ==> reply in Responses(Classify(message))
    ensures online.Some? && online.value.Ok? ==> reply == online.value.value
    ensures online.Some? && online.value.Err? ==> reply == ErrorPrefix + online.value.error
  {
    match online
    case None => Responses(Classify(message))[pick]
    case Some(Ok(text)) => text
    case Some(Err(e)) => ErrorPrefix + e
  }

  /** The converse of `Classify`'s contract: a topic mentioned in the
      lowered message, with no earlier topic mentioned, is the
      classification (for the generic kind, no other topic is mentioned). */
  lemma ClassifiedAs(message: string, t: Topic)
    requires t != Other ==> Mentions(Lower(message), t)
    requires forall u: Topic :: Rank(u) < Rank(t) ==> !Mentions(Lower(message), u)
    ensures Classify(message) == t
  {
  }

  /** The first three topics are not mentioned in `text`. */
  predicate NoEarlierThanThanks(text: string) {
    !Mentions(text, Hello) && !Mentions(text, Status) && !Mentions(text, Help)
  }

  /** Keyword matching looks inside words: "hi" in "this" makes a thank-you
      with "this" in it a greeting. */
  lemma ThanksForThisIsHello(message: string)
    requires message == "Thanks for this"
    ensures Classify(message) == Hello
  {
    EndsInThis("Thanks for t", message);
    assert Keywords(Hello)[3] == "hi";
    ClassifiedAs(message, Hello);
  }

  /** Whatever precedes "his", the lowered text contains "hi". */
  lemma EndsInThis(front: string, message: string)
    requires message == front + "his"
    ensures Contains(Lower(message), "hi")
  {
    LowerAppend(front, "his");
    assert Lower("his") == "his";
    ContainsAfter(Lower(front), "his", "hi");
  }

  /** `lower()` turns the dotted capital I into 'i' and a combining dot,
      so "HI" written with it is a greeting. */
  lemma DottedCapitalIGreets(message: string)
    requires message == "H\U{130}"
    ensures Lower(message) == "hi\U{307}"
    ensures Classify(message) == Hello
  {
    assert Lower(message) == "hi\U{307}";
    assert StartsWith("hi\U{307}", "hi");
    assert Keywords(Hello)[3] == "hi";
    ClassifiedAs(message, Hello);
  }

  /** No greeting, status or help keyword occurs in "thanks": each lacks a
      letter of it. */
  lemma ThanksMentionsNoEarlier(text: string)
    requires text == "thanks"
    ensures NoEarlierThanThanks(text)
  {
    ThanksIsNoGreeting(text);
    ThanksIsNoStatus(text);
    ThanksIsNoHelp(text);
  }

  lemma ThanksIsNoGreeting(text: string)
    requires text == "thanks"
    ensures !Mentions(text, Hello)
  {
    MissingCharNotContained(text, "oi", 0);
    MissingCharNotContained(text, "olá", 0);
    MissingCharNotContained(text, "hello", 1);
    MissingCharNotContained(text, "hi", 1);
  }

  lemma ThanksIsNoStatus(text: string)
    requires text == "thanks"
    ensures !Mentions(text, Status)
  {
    MissingCharNotContained(text, "como", 0);
    MissingCharNotContained(text, "está", 0);
    MissingCharNotContained(text, "vai", 0);
  }

  lemma ThanksIsNoHelp(text: string)
    requires text == "thanks"
    ensures !Mentions(text, Help)
  {
    MissingCharNotContained(text, "ajuda", 1);
    MissingCharNotContained(text, "help", 1);
    MissingCharNotContained(text, "socorro", 1);
  }

  /** `lower()` turns the Kelvin sign into 'k', so "THANKS" written with
      it is a thank-you. */
  lemma KelvinSignThanks(message: string)
    requires message == "THAN\U{212A}S"
    ensures Lower(message) == "thanks"
    ensures Classify(message) == Thanks
  {
    KelvinLowersToThanks(message);
    LowersToThanks(message);
  }

  /** A message that lowers to "thanks" is a thank-you. */
  lemma LowersToThanks(message: string)
    requires Lower(message) == "thanks"
    ensures Classify(message) == Thanks
  {
    var text := Lower(message);
    ThanksMentionsNoEarlier(text);
    assert StartsWith(text, "thanks");
    assert Keywords(Thanks)[1] == "thanks";
    ClassifiedAs(message, Thanks);
  }

  lemma KelvinLowersToThanks(message: string)
    requires message == "THAN\U{212A}S"
    ensures Lower(message) == "thanks"
  {
  }
}

=== FILE: colors.dfy ===
/** RGBA colours and the hex-string parser that both sprite scripts carry:
    `hex_to_rgb` in sprite_generator_hd.py and `hex_to_rgba` in
    cat_sprites.py are the same code, so they are one function here. */
module Colors {
  import opened Wrappers
  import opened Strings

  /** A pixel or colour: red, green, blue and alpha. */
  datatype Rgba = Rgba(r: int, g: int, b: int, a: int)

  const Transparent := Rgba(0, 0, 0, 0)

  predicate IsByte(n: int) {
    0 <= n <= 255
  }

  predicate IsHexDigit(c: char) {
    ('0' <= c <= '9') || ('a' <= c <= 'f') || ('A' <= c <= 'F')
  }

  function HexDigitValue(c: char): (v: nat)
    requires IsHexDigit(c)
    ensures v < 16
  {
    if '0' <= c <= '9' then c as int - '0' as int
    else if 'a' <= c <= 'f' then c as int - 'a' as int + 10
    else c as int - 'A' as int + 10
  }

  /** `int(s, 16)` on the slices of at most two characters the parser
      takes. Python first rewrites the slice to ASCII, as `IntText` does;
      on the result it accepts a hex digit, two hex digits, a digit with
      ASCII whitespace before or after it, or a sign and a digit. An
      empty slice, a lone sign or space, "0x", a U+001C..U+001F separator
      or any character the rewrite turns into '?' makes it raise
      `ValueError`, here `None`. */
  function ParseHexPair(s: string): (r: Option<int>)
    requires |s| <= 2
    ensures r.Some? ==> -15 <= r.value <= 255
    ensures |s| == 2 && IsHexDigit(s[0]) && IsHexDigit(s[1]) ==> r == Some(HexDigitValue(s[0]) * 16 + HexDigitValue(s[1]))
    ensures |s| == 0 ==> r.None?
  {
    HexPair(IntText(s))
  }

  /** `int(t, 16)` on a rewritten slice `t`. */
  function HexPair(t: string): (r: Option<int>)
    requires |t| <= 2
    ensures r.Some? ==> -15 <= r.value <= 255
  {
    if |t| == 0 then None
    else if |t| == 1 then (if IsHexDigit(t[0]) then Some(HexDigitValue(t[0])) else None)
    else if IsHexDigit(t[0]) && IsHexDigit(t[1]) then Some(HexDigitValue(t[0]) * 16 + HexDigitValue(t[1]))
    else if IsHexDigit(t[0]) && IntSpace(t[1]) then Some(HexDigitValue(t[0]))
    else if IntSpace(t[0]) && IsHexDigit(t[1]) then Some(HexDigitValue(t[1]))
    else if t[0] == '+' && IsHexDigit(t[1]) then Some(HexDigitValue(t[1]))
    else if t[0] == '-' && IsHexDigit(t[1]) then Some(0 - HexDigitValue(t[1]) as int)
    else None
  }

  /** An information separator anywhere in a slice makes it raise,
      although `strip()` would have removed it. */
  lemma PairSeparatorRejected(s: string, i: nat)
    requires |s| <= 2 && i < |s| && IsSeparator(s[i])
    ensures ParseHexPair(s).None?
  {
    assert IntText(s)[i] == s[i];
  }

  /** A Unicode decimal digit alone reads as its value. */
  lemma PairUnicodeDigit(c: char, j: nat, v: nat)
    requires j < |DigitZeros| && v < 10 && c as int == DigitZeros[j] + v
    ensures ParseHexPair([c]) == Some(v)
  {
    DigitRewrites(c, j, v);
    assert IntText([c]) == [DigitChar(v)];
  }

  /** ARABIC-INDIC DIGIT THREE reads as 3. */
  lemma ParseArabicThree()
    ensures ParseHexPair("\U{663}") == Some(3)
  {
    assert DigitZeros[1] == 0x660;
    PairUnicodeDigit('\U{663}', 1, 3);
  }

  /** Whitespace above U+007F counts as a space once rewritten:
      "F" and NO-BREAK SPACE reads as 15. */
  lemma ParseNoBreakSpace()
    ensures ParseHexPair("F\U{A0}") == Some(15)
  {
    var t := IntText("F\U{A0}");
    assert t[0] == 'F' && t[1] == ' ';
    assert IsHexDigit('F') && HexDigitValue('F') == 15;
  }

  /** `hex.lstrip('#')`: every leading '#' removed. */
  function StripHashes(s: string): (r: string)
    ensures |r| <= |s| && r == s[|s| - |r|..]
    ensures forall i :: 0 <= i < |s| - |r| ==> s[i] == '#'
    ensures r == [] || r[0] != '#'
    decreases |s|
  {
    if |s| > 0 && s[0] == '#' then StripHashes(s[1..]) else s
  }

  /** Python's slice `s[i:i+2]`: clamped to the string, so possibly shorter or empty. */
  function Pair(s: string, i: nat): (r: string)
    ensures |r| <= 2
    ensures i + 2 <= |s| ==> r == s[i..i + 2]
    ensures |s| <= i ==> r == ""
  {
    if |s| <= i then "" else if |s| < i + 2 then s[i..] else s[i..i + 2]
  }

  /** `hex_to_rgb` / `hex_to_rgba`: strip the leading '#'s, read the pairs at
      offsets 0, 2 and 4 as base-16 numbers and append alpha 255. */
  function HexToRgba(hex: string): (c: Option<Rgba>)
    ensures c.Some? ==> c.value.a == 255
    ensures c.Some? ==> -15 <= c.value.r <= 255 && -15 <= c.value.g <= 255 && -15 <= c.value.b <= 255
    ensures |StripHashes(hex)| <= 4 ==> c.None?
  {
    var s := StripHashes(hex);
    match (ParseHexPair(Pair(s, 0)), ParseHexPair(Pair(s, 2)), ParseHexPair(Pair(s, 4)))
    case (Some(r), Some(g), Some(b)) => Some(Rgba(r, g, b, 255))
    case _ => None
  }

  /** A colour written the conventional way: '#' and six hex digits. */
  predicate IsHexColor(s: string) {
    |s| == 7 && s[0] == '#' && forall i :: 1 <= i < 7 ==> IsHexDigit(s[i])
  }

  /** The byte written by the two hex digits at `s[k]` and `s[k + 1]`. */
  function ByteAt(s: string, k: nat): (v: int)
    requires k + 1 < |s| && IsHexDigit(s[k]) && IsHexDigit(s[k + 1])
    ensures IsByte(v)
  {
    HexDigitValue(s[k]) * 16 + HexDigitValue(s[k + 1])
  }

  /** A conventional colour parses, into the bytes its three digit pairs write. */
  lemma HexColorParses(s: string)
    requires IsHexColor(s)
    ensures HexToRgba(s) == Some(Rgba(ByteAt(s, 1), ByteAt(s, 3), ByteAt(s, 5), 255))
  {
    ColorPairs(s);
    PairByte(s, 1);
    PairByte(s, 3);
    PairByte(s, 5);
    ParsedFromPairs(s, ByteAt(s, 1), ByteAt(s, 3), ByteAt(s, 5));
  }

  /** The three slices of a conventional colour are its digit pairs. */
  lemma ColorPairs(s: string)
    requires IsHexColor(s)
    ensures Pair(StripHashes(s), 0) == s[1..3]
    ensures Pair(StripHashes(s), 2) == s[3..5]
    ensures Pair(StripHashes(s), 4) == s[5..7]
  {
    var t := StripHashes(s);
    assert t == s[1..] by {
      assert StripHashes(s[1..]) == s[1..];
    }
    assert t[0..2] == s[1..3] && t[2..4] == s[3..5] && t[4..6] == s[5..7];
  }

  /** The slice of two hex digits at `s[k]` reads as their byte. */
  lemma PairByte(s: string, k: nat)
    requires k + 1 < |s| && IsHexDigit(s[k]) && IsHexDigit(s[k + 1])
    ensures ParseHexPair(s[k..k + 2]) == Some(ByteAt(s, k))
  {
    var p := s[k..k + 2];
    assert p[0] == s[k] && p[1] == s[k + 1];
  }

  function HexChar(d: nat): (c: char)
    requires d < 16
    ensures IsHexDigit(c) && HexDigitValue(c) == d
  {
    if d < 10 then ('0' as int + d) as char else ('A' as int + d - 10) as char
  }

  /** Two upper-case hex digits for a byte. */
  function ByteHex(n: int): (s: string)
    requires IsByte(n)
    ensures |s| == 2 && IsHexDigit(s[0]) && IsHexDigit(s[1]) && ByteAt(s, 0) == n
  {
    [HexChar(n / 16), HexChar(n % 16)]
  }

  /** The '#RRGGBB' string of a colour's red, green and blue. */
  function ToHex(c: Rgba): (s: string)
    requires IsByte(c.r) && IsByte(c.g) && IsByte(c.b)
    ensures IsHexColor(s)
    ensures ByteAt(s, 1) == c.r && ByteAt(s, 3) == c.g && ByteAt(s, 5) == c.b
  {
    var s := "#" + ByteHex(c.r) + ByteHex(c.g) + ByteHex(c.b);
    assert s[1..3] == ByteHex(c.r) && s[3..5] == ByteHex(c.g) && s[5..7] == ByteHex(c.b);
    s
  }

  /** Parsing a colour's hex string gives back the colour, made opaque. */
  lemma HexRoundTrip(c: Rgba)
    requires IsByte(c.r) && IsByte(c.g) && IsByte(c.b)
    ensures HexToRgba(ToHex(c)) == Some(c.(a := 255))
  {
    HexColorParses(ToHex(c));
  }

  /** A colour whose three slices parse is built from them. */
  lemma ParsedFromPairs(hex: string, r: int, g: int, b: int)
    requires ParseHexPair(Pair(StripHashes(hex), 0)) == Some(r)
    requires ParseHexPair(Pair(StripHashes(hex), 2)) == Some(g)
    requires ParseHexPair(Pair(StripHashes(hex), 4)) == Some(b)
    ensures HexToRgba(hex) == Some(Rgba(r, g, b, 255))
  {
  }

  lemma ParseFF()
    ensures ParseHexPair("FF") == Some(255)
  {
    assert IsHexDigit('F') && HexDigitValue('F') == 15;
  }

  lemma ParseF()
    ensures ParseHexPair("F") == Some(15)
  {
    assert IsHexDigit('F') && HexDigitValue('F') == 15;
  }

  lemma FivePairs()
    ensures StripHashes("#FFFFF") == "FFFFF"
    ensures Pair("FFFFF", 0) == "FF" && Pair("FFFFF", 2) == "FF" && Pair("FFFFF", 4) == "F"
  {
    assert "#FFFFF"[1..] == "FFFFF";
    assert StripHashes("FFFFF") == "FFFFF";
  }

  /** A five-digit colour still parses: its last slice holds one digit. */
  lemma FiveDigitColor()
    ensures HexToRgba("#FFFFF") == Some(Rgba(255, 255, 15, 255))
  {
    FivePairs();
    ParseFF();
    ParseF();
    ParsedFromPairs("#FFFFF", 255, 255, 15);
  }
}

=== FILE: files.dfy ===
/** What the programs find when they go to read an image file. */
module Files {
  /** The file is not there, it opens, or it exists but opening it
      raises (a truncated or non-image file). */
  datatype FileState = Missing | Readable | Broken
}

=== FILE: markings.dfy ===
/** The deterministic parts of sprite_generator_hd.py: the breed palettes,
    the alternating paw offsets of a walk frame, and the three marking
    passes that recolour parts of a drawn 128x128 cat (siamese points,
    tuxedo white, tabby stripes).

    An image is a sequence of rows, so `img[y][x]` is the pixel PIL
    addresses as `pixels[x, y]`. Each pass is a method with nested loops,
    checked against a reference definition that recolours every pixel
    independently (`MapPixels`). */
module Markings {
  import opened Wrappers
  import opened Colors
  import opened SpriteFiles

  type Image = seq<seq<Rgba>>

  function Width(img: Image): nat {
    if |img| == 0 then 0 else |img[0]|
  }

  /** Every row has the same length. */
  predicate Rectangular(img: Image) {
    forall y :: 0 <= y < |img| ==> |img[y]| == Width(img)
  }

  predicate SameShape(a: Image, b: Image) {
    |a| == |b| && forall y :: 0 <= y < |a| ==> |a[y]| == |b[y]|
  }

  /** The pixels [x0, x1) x [y0, y1). */
  datatype Rect = Rect(x0: int, x1: int, y0: int, y1: int)

  predicate In(r: Rect, x: int, y: int) {
    r.x0 <= x < r.x1 && r.y0 <= y < r.y1
  }

  /** Every pixel of the rectangle exists in the image. */
  predicate Fits(img: Image, r: Rect) {
    Rectangular(img) && 0 <= r.x0 && r.x1 <= Width(img) && 0 <= r.y0 && r.y1 <= |img|
  }

  /** The reference definition of a pass: each pixel replaced by `f` of
      its coordinates and its old value. */
  function MapPixels(img: Image, f: (int, int, Rgba) -> Rgba): (out: Image)
    ensures SameShape(out, img)
    ensures forall y, x :: 0 <= y < |img| && 0 <= x < |img[y]| ==> out[y][x] == f(x, y, img[y][x])
  {
    seq(|img|, y requires 0 <= y < |img| => seq(|img[y]|, x requires 0 <= x < |img[y]| => f(x, y, img[y][x])))
  }

  /** Two images of the same shape that agree on every pixel are equal. */
  lemma SamePixels(a: Image, b: Image)
    requires SameShape(a, b)
    requires forall y, x :: 0 <= y < |a| && 0 <= x < |a[y]| ==> a[y][x] == b[y][x]
    ensures a == b
  {
    forall y | 0 <= y < |a|
      ensures a[y] == b[y]
    {
      assert forall x :: 0 <= x < |a[y]| ==> a[y][x] == b[y][x];
    }
  }

  /** The nested `for y in range(...): for x in range(...)` loop: each pixel
      of the rectangle, visited once, is replaced by `f` of its coordinates
      and value; no other pixel is touched. */
  method PaintRegion(img: Image, r: Rect, f: (int, int, Rgba) -> Rgba) returns (out: Image)
    requires Fits(img, r)
    ensures SameShape(out, img)
    ensures forall y, x :: 0 <= y < |img| && 0 <= x < |img[y]| ==>
      out[y][x] == (if In(r, x, y) then f(x, y, img[y][x]) else img[y][x])
  {
    out := img;
    var y := r.y0;
    while y < r.y1
      invariant r.y0 <= y
      invariant r.y0 <= r.y1 ==> y <= r.y1
      invariant SameShape(out, img)
      invariant forall yy, xx :: 0 <= yy < |img| && 0 <= xx < |img[yy]| ==>
        out[yy][xx] == (if In(r, xx, yy) && yy < y then f(xx, yy, img[yy][xx]) else img[yy][xx])
    {
      var x := r.x0;
      while x < r.x1
        invariant r.x0 <= x
        invariant r.x0 <= r.x1 ==> x <= r.x1
        invariant SameShape(out, img)
        invariant forall yy, xx :: 0 <= yy < |img| && 0 <= xx < |img[yy]| ==>
          out[yy][xx] == (if In(r, xx, yy) && (yy < y || (yy == y && xx < x)) then f(xx, yy, img[yy][xx]) else img[yy][xx])
      {
        out := out[y := out[y][x := f(x, y, out[y][x])]];
        x := x + 1;
      }
      y := y + 1;
    }
  }

  // ---------------------------------------------------------------------
  // tuxedo

  const White := Rgba(255, 255, 255, 255)
  /** White chest: x in [50, 78), y in [60, 95). */
  const Chest := Rect(50, 78, 60, 95)
  /** White paws: x in [48, 80), y in [85, 105). */
  const Paws := Rect(48, 80, 85, 105)

  /** What `add_tuxedo_markings` does to one pixel. */
  function TuxedoPixel(x: int, y: int, p: Rgba): Rgba {
    if (In(Chest, x, y) || In(Paws, x, y)) && p.a > 0 then White else p
  }

  /** `add_tuxedo_markings`: every visible pixel of the chest and paw
      rectangles turns opaque white; nothing else changes. */
  method AddTuxedoMarkings(img: Image) returns (out: Image)
    requires Rectangular(img) && Width(img) >= 80 && |img| >= 105
    ensures out == MapPixels(img, TuxedoPixel)
    ensures SameShape(out, img)
    ensures forall y, x :: 0 <= y < |img| && 0 <= x < |img[y]| ==>
      (out[y][x].a > 0 <==> img[y][x].a > 0)
    ensures forall y, x :: 0 <= y < |img| && 0 <= x < |img[y]| && !In(Chest, x, y) && !In(Paws, x, y) ==>
      out[y][x] == img[y][x]
  {
    var toWhite := (x: int, y: int, p: Rgba) => if p.a > 0 then White else p;
    var chest := PaintRegion(img, Chest, toWhite);
    out := PaintRegion(chest, Paws, toWhite);
    SamePixels(out, MapPixels(img, TuxedoPixel));
  }

  // ---------------------------------------------------------------------
  // siamese

  /** `hex_to_rgb('#8B4513')`, the dark colour of a siamese's points. */
  const PointColor := Rgba(139, 69, 19, 255)
  /** The ear loop scans x in [20, 108), y in [10, 30) ... */
  const EarScan := Rect(20, 108, 10, 30)
  /** ... but only rows above this one are darkened. */
  const EarRowsEnd := 25
  /** The tail: x in [85, 115), y in [63, 80). */
  const Tail := Rect(85, 115, 63, 80)

  lemma PointColorIsParsed()
    ensures HexToRgba("#8B4513") == Some(PointColor)
  {
    ParsesTo("#8B4513", PointColor);
  }

  /** A conventional colour literal parses into the bytes it spells. */
  lemma ParsesTo(s: string, c: Rgba)
    requires |s| == 7 && s[0] == '#' && c.a == 255
    requires forall i :: 1 <= i < 7 ==> IsHexDigit(s[i])
    requires c.r == ByteAt(s, 1) && c.g == ByteAt(s, 3) && c.b == ByteAt(s, 5)
    ensures HexToRgba(s) == Some(c)
  {
    HexColorParses(s);
  }

  /** What `add_siamese_points` does to one pixel. */
  function SiamesePixel(x: int, y: int, p: Rgba): Rgba {
    if In(EarScan, x, y) && p.a > 0 && y < EarRowsEnd && p.r > 200 then PointColor
    else if In(Tail, x, y) && p.a > 0 then PointColor
    else p
  }

  /** `add_siamese_points`: visible light (red above 200) ear pixels in rows
      10 to 24 and every visible tail pixel take the point colour; rows 25
      to 29 of the ear loop and everything outside the two areas stay. */
  method AddSiamesePoints(img: Image) returns (out: Image)
    requires Rectangular(img) && Width(img) >= 115 && |img| >= 80
    ensures out == MapPixels(img, SiamesePixel)
    ensures SameShape(out, img)
    ensures forall y, x :: 0 <= y < |img| && 0 <= x < |img[y]| ==>
      (out[y][x].a > 0 <==> img[y][x].a > 0)
    ensures forall y, x :: 0 <= y < |img| && 0 <= x < |img[y]| && !In(Rect(20, 108, 10, 25), x, y) && !In(Tail, x, y) ==>
      out[y][x] == img[y][x]
  {
    var ears := (x: int, y: int, p: Rgba) => if p.a > 0 && y < EarRowsEnd && p.r > 200 then PointColor else p;
    var tail := (x: int, y: int, p: Rgba) => if p.a > 0 then PointColor else p;
    var darkEars := PaintRegion(img, EarScan, ears);
    out := PaintRegion(darkEars, Tail, tail);
    SamePixels(out, MapPixels(img, SiamesePixel));
  }

  // ---------------------------------------------------------------------
  // tabby

  /** The columns `add_tabby_stripes` paints, top to bottom over rows [25, 85). */
  const StripeColumns: seq<int> := [50, 58, 70, 78]
  const StripeTop := 25
  const StripeBottom := 85

  /** What `add_tabby_stripes` does to one pixel, for stripe colour `stripe`. */
  function TabbyPixel(stripe: Rgba, x: int, y: int, p: Rgba): Rgba {
    if x in StripeColumns && StripeTop <= y < StripeBottom && p.a > 0 then stripe else p
  }

  /** The first `k` stripe columns are painted on `out` and nothing else
      differs from `img`. */
  predicate StripedUpTo(img: Image, out: Image, stripe: Rgba, k: nat)
    requires k <= |StripeColumns| && SameShape(out, img)
  {
    forall y, x :: 0 <= y < |img| && 0 <= x < |img[y]| ==>
      out[y][x] == (if x in StripeColumns[..k] && StripeTop <= y < StripeBottom && img[y][x].a > 0 then stripe else img[y][x])
  }

  /** Painting column `StripeColumns[k]` extends the striped prefix by one. */
  lemma StripeStep(img: Image, before: Image, after: Image, stripe: Rgba, k: nat)
    requires k < |StripeColumns| && SameShape(before, img) && SameShape(after, img)
    requires StripedUpTo(img, before, stripe, k)
    requires forall y, x :: 0 <= y < |img| && 0 <= x < |img[y]| ==>
      after[y][x] == (if x == StripeColumns[k] && StripeTop <= y < StripeBottom && before[y][x].a > 0 then stripe else before[y][x])
    ensures StripedUpTo(img, after, stripe, k + 1)
  {
    var c := StripeColumns[k];
    assert StripeColumns[..k + 1] == StripeColumns[..k] + [c];
    assert c !in StripeColumns[..k] by {
      assert forall j :: 0 <= j < k ==> StripeColumns[j] < c;
    }
    forall y, x | 0 <= y < |img| && 0 <= x < |img[y]|
      ensures after[y][x] == (if x in StripeColumns[..k + 1] && StripeTop <= y < StripeBottom && img[y][x].a > 0 then stripe else img[y][x])
    {
      if x != c {
        assert (x in StripeColumns[..k + 1]) == (x in StripeColumns[..k]);
      }
    }
  }

  /** With all four columns painted, the image is the tabby map of the original. */
  lemma StripesDone(img: Image, out: Image, stripe: Rgba)
    requires Rectangular(img) && SameShape(out, img)
    requires StripedUpTo(img, out, stripe, |StripeColumns|)
    ensures out == MapPixels(img, (x, y, p) => TabbyPixel(stripe, x, y, p))
  {
    assert StripeColumns[..|StripeColumns|] == StripeColumns;
    var spec := MapPixels(img, (x, y, p) => TabbyPixel(stripe, x, y, p));
    forall y, x | 0 <= y < |out| && 0 <= x < |out[y]|
      ensures out[y][x] == spec[y][x]
    {
      assert |out[y]| == |img[y]|;
      assert out[y][x] == (if x in StripeColumns && StripeTop <= y < StripeBottom && img[y][x].a > 0 then stripe else img[y][x]);
      assert spec[y][x] == TabbyPixel(stripe, x, y, img[y][x]);
    }
    SamePixels(out, spec);
  }

  /** `add_tabby_stripes`: the visible pixels of four one-pixel columns
      take the palette's shadow colour; nothing else changes. */
  method AddTabbyStripes(img: Image, stripe: Rgba) returns (out: Image)
    requires Rectangular(img) && Width(img) >= 79 && |img| >= 85
    ensures out == MapPixels(img, (x, y, p) => TabbyPixel(stripe, x, y, p))
    ensures SameShape(out, img)
    ensures stripe.a > 0 ==> forall y, x :: 0 <= y < |img| && 0 <= x < |img[y]| ==>
      (out[y][x].a > 0 <==> img[y][x].a > 0)
    ensures forall y, x :: 0 <= y < |img| && 0 <= x < |img[y]| && x !in StripeColumns ==>
      out[y][x] == img[y][x]
  {
    var paint := (x: int, y: int, p: Rgba) => if p.a > 0 then stripe else p;
    out := img;
    var k := 0;
    while k < |StripeColumns|
      invariant 0 <= k <= |StripeColumns|
      invariant Rectangular(out) && Width(out) == Width(img) && SameShape(out, img)
      invariant StripedUpTo(img, out, stripe, k)
    {
      var before := out;
      out := PaintRegion(before, Rect(StripeColumns[k], StripeColumns[k] + 1, StripeTop, StripeBottom), paint);
      StripeStep(img, before, out, stripe, k);
      k := k + 1;
    }
    StripesDone(img, out, stripe);
  }


  // ---------------------------------------------------------------------
  // idempotence: a second application changes nothing

  lemma TuxedoIdempotent(img: Image)
    ensures MapPixels(MapPixels(img, TuxedoPixel), TuxedoPixel) == MapPixels(img, TuxedoPixel)
  {
    SamePixels(MapPixels(MapPixels(img, TuxedoPixel), TuxedoPixel), MapPixels(img, TuxedoPixel));
  }

  lemma SiameseIdempotent(img: Image)
    ensures MapPixels(MapPixels(img, SiamesePixel), SiamesePixel) == MapPixels(img, SiamesePixel)
  {
    SamePixels(MapPixels(MapPixels(img, SiamesePixel), SiamesePixel), MapPixels(img, SiamesePixel));
  }

  lemma TabbyIdempotent(img: Image, stripe: Rgba)
    ensures var f := (x, y, p) => TabbyPixel(stripe, x, y, p);
      MapPixels(MapPixels(img, f), f) == MapPixels(img, f)
  {
    var f := (x, y, p) => TabbyPixel(stripe, x, y, p);
    SamePixels(MapPixels(MapPixels(img, f), f), MapPixels(img, f));
  }

  // ---------------------------------------------------------------------
  // palettes, walk frames and the generator's main loop

  /** A breed's three colours as written in the source. */
  datatype Swatch = Swatch(base: string, shadow: string, light: string)

  /** `get_color_palettes`, in its insertion order. */
  const HdPalettes: seq<(string, Swatch)> := [
    ("orange", Swatch("#FF8C42", "#D65F20", "#FFB570")),
    ("tabby", Swatch("#8B7355", "#5C4A3A", "#B39C7E")),
    ("siamese", Swatch("#FFF8DC", "#E6D7B8", "#FFFFF0")),
    ("tuxedo", Swatch("#2C2C2C", "#1A1A1A", "#404040"))
  ]

  function HdBreeds(): (breeds: seq<string>)
    ensures |breeds| == |HdPalettes|
    ensures forall k :: 0 <= k < |HdPalettes| ==> breeds[k] == HdPalettes[k].0
  {
    seq(|HdPalettes|, k requires 0 <= k < |HdPalettes| => HdPalettes[k].0)
  }

  /** A seven-character literal written '#' and six hex digits. */
  lemma HexLiteral(s: string)
    requires |s| == 7 && s[0] == '#'
    requires IsHexDigit(s[1]) && IsHexDigit(s[2]) && IsHexDigit(s[3])
    requires IsHexDigit(s[4]) && IsHexDigit(s[5]) && IsHexDigit(s[6])
    ensures IsHexColor(s)
  {
  }

  /** Every palette entry is a conventional '#RRGGBB' colour, so each
      parses into three bytes with alpha 255. */
  lemma PaletteColorsAreHex()
    ensures forall k :: 0 <= k < |HdPalettes| ==>
      IsHexColor(HdPalettes[k].1.base) && IsHexColor(HdPalettes[k].1.shadow) && IsHexColor(HdPalettes[k].1.light)
  {
    forall k | 0 <= k < |HdPalettes|
      ensures IsHexColor(HdPalettes[k].1.base) && IsHexColor(HdPalettes[k].1.shadow) && IsHexColor(HdPalettes[k].1.light)
    {
      var w := HdPalettes[k].1;
      HexLiteral(w.base);
      HexLiteral(w.shadow);
      HexLiteral(w.light);
    }
  }

  /** The tabby's stripe colour is its shadow, '#5C4A3A', which is opaque;
      so the tabby pass keeps the silhouette. */
  lemma TabbyStripeIsOpaque()
    ensures HexToRgba(HdPalettes[1].1.shadow) == Some(Rgba(92, 74, 58, 255))
  {
    ParsesTo("#5C4A3A", Rgba(92, 74, 58, 255));
  }

  /** The vertical offsets of the left and right paws in walk frame
      `frame`: +5 and -5 on even frames, -5 and +5 on odd ones. */
  function PawOffsets(frame: int): (offsets: (int, int))
    ensures offsets.0 == -offsets.1
    ensures offsets.0 == 5 || offsets.0 == -5
    ensures offsets.0 == 5 <==> frame % 2 == 0
  {
    (if frame % 2 == 0 then 5 else -5, if frame % 2 == 0 then -5 else 5)
  }

  /** Consecutive frames swap the two offsets. */
  lemma PawsAlternate(frame: int)
    ensures PawOffsets(frame + 1) == (PawOffsets(frame).1, PawOffsets(frame).0)
  {
    assert (frame + 1) % 2 == 0 <==> frame % 2 != 0;
  }

  /** The marking a breed receives in `main`: siamese points, tuxedo white,
      tabby stripes in the palette's shadow; any other breed is untouched. */
  method ApplyMarkings(breed: string, img: Image, shadow: Rgba) returns (out: Image)
    requires Rectangular(img) && Width(img) >= 115 && |img| >= 105
    ensures breed == "siamese" ==> out == MapPixels(img, SiamesePixel)
    ensures breed == "tuxedo" ==> out == MapPixels(img, TuxedoPixel)
    ensures breed == "tabby" ==> out == MapPixels(img, (x, y, p) => TabbyPixel(shadow, x, y, p))
    ensures breed != "siamese" && breed != "tuxedo" && breed != "tabby" ==> out == img
    ensures SameShape(out, img)
    ensures shadow.a > 0 ==> forall y, x :: 0 <= y < |img| && 0 <= x < |img[y]| ==>
      (out[y][x].a > 0 <==> img[y][x].a > 0)
  {
    if breed == "siamese" {
      out := AddSiamesePoints(img);
    } else if breed == "tuxedo" {
      out := AddTuxedoMarkings(img);
    } else if breed == "tabby" {
      out := AddTabbyStripes(img, shadow);
    } else {
      out := img;
    }
  }

  /** Walk animations have six frames. */
  const WalkFrames := 6

  /** What `main` writes, in order: every breed's sitting pose, then every
      breed's six walk frames. */
  function HdOutputs(): (outs: seq<Output>)
    ensures |outs| == |HdPalettes| + WalkFrames * |HdPalettes|
    ensures forall k :: 0 <= k < |HdPalettes| ==> outs[k] == Sit(HdPalettes[k].0)
    ensures forall k :: 0 <= k < WalkFrames * |HdPalettes| ==>
      outs[|HdPalettes| + k] == Walk(HdPalettes[k / WalkFrames].0, k % WalkFrames)
  {
    var n := |HdPalettes|;
    seq(n, k requires 0 <= k < n => Sit(HdPalettes[k].0))
      + seq(WalkFrames * n, k requires 0 <= k < WalkFrames * n => Walk(HdPalettes[k / WalkFrames].0, k % WalkFrames))
  }

  lemma HdBreedsDistinctPrefixes()
    ensures DistinctPrefixes(HdBreeds())
  {
    var breeds := HdBreeds();
    assert breeds == ["orange", "tabby", "siamese", "tuxedo"];
    assert breeds[0][..2] == "or" && breeds[1][..2] == "ta" && breeds[2][..2] == "si" && breeds[3][..2] == "tu";
  }

  lemma HdOutputBreed(k: nat)
    requires k < |HdOutputs()|
    ensures HdOutputs()[k].breed in HdBreeds()
  {
    var n := |HdPalettes|;
    if k < n {
      assert HdOutputs()[k].breed == HdBreeds()[k];
    } else {
      assert HdOutputs()[n + (k - n)].breed == HdBreeds()[(k - n) / WalkFrames];
    }
  }

  /** The 4 sitting sprites and 24 walk frames go to 28 different files. */
  lemma HdFilesDistinct()
    ensures |HdOutputs()| == 28
    ensures forall i, j :: 0 <= i < j < |HdOutputs()| ==> FileName(HdOutputs()[i]) != FileName(HdOutputs()[j])
  {
    var outs := HdOutputs();
    HdBreedsDistinctPrefixes();
    forall i, j | 0 <= i < j < |outs|
      ensures FileName(outs[i]) != FileName(outs[j])
    {
      HdOutputBreed(i);
      HdOutputBreed(j);
      if FileName(outs[i]) == FileName(outs[j]) {
        FileNameInjective(HdBreeds(), outs[i], outs[j]);
        HdOutputsDistinct(i, j);
      }
    }
  }

  /** Two different walk indices name different (breed, frame) pairs. */
  lemma WalkOutputsDistinct(a: nat, b: nat)
    requires a < b < WalkFrames * |HdPalettes|
    ensures Walk(HdPalettes[a / WalkFrames].0, a % WalkFrames) != Walk(HdPalettes[b / WalkFrames].0, b % WalkFrames)
  {
    if a / WalkFrames == b / WalkFrames {
      assert a % WalkFrames != b % WalkFrames;
    } else {
      HdBreedsDistinctPrefixes();
      assert HdBreeds()[a / WalkFrames] != HdBreeds()[b / WalkFrames];
    }
  }

  /** Two different sit indices name different breeds. */
  lemma SitOutputsDistinct(a: nat, b: nat)
    requires a < b < |HdPalettes|
    ensures Sit(HdPalettes[a].0) != Sit(HdPalettes[b].0)
  {
    HdBreedsDistinctPrefixes();
    assert HdBreeds()[a] != HdBreeds()[b];
  }

  /** Any sequence laid out as `HdOutputs` is — sits, then walks in
      breed-major order — has no repeated entry. */
  lemma OutputsLayoutDistinct(outs: seq<Output>, i: nat, j: nat)
    requires |outs| == |HdPalettes| + WalkFrames * |HdPalettes|
    requires forall k :: 0 <= k < |HdPalettes| ==> outs[k] == Sit(HdPalettes[k].0)
    requires forall k :: 0 <= k < WalkFrames * |HdPalettes| ==>
      outs[|HdPalettes| + k] == Walk(HdPalettes[k / WalkFrames].0, k % WalkFrames)
    requires i < j < |outs|
    ensures outs[i] != outs[j]
  {
    var n := |HdPalettes|;
    if j < n {
      SitOutputsDistinct(i, j);
    } else if i >= n {
      assert outs[n + (i - n)] == Walk(HdPalettes[(i - n) / WalkFrames].0, (i - n) % WalkFrames);
      assert outs[n + (j - n)] == Walk(HdPalettes[(j - n) / WalkFrames].0, (j - n) % WalkFrames);
      WalkOutputsDistinct(i - n, j - n);
    } else {
      assert outs[i].Sit?;
      assert 0 <= j - n < WalkFrames * n;
      assert outs[n + (j - n)] == Walk(HdPalettes[(j - n) / WalkFrames].0, (j - n) % WalkFrames);
    }
  }

  lemma HdOutputsDistinct(i: nat, j: nat)
    requires i < j < |HdOutputs()|
    ensures HdOutputs()[i] != HdOutputs()[j]
  {
    OutputsLayoutDistinct(HdOutputs(), i, j);
  }
}

=== FILE: naming.dfy ===
/** The file names the sprite pipeline writes: `{breed}_sit.png` for the
    sitting pose and `{breed}_walk_{i}.png` for walk frame `i`, in a
    `sprites_hd` directory. Both sprite_generator_hd.py and
    pop_shop_integrator.py write these names. */
module SpriteFiles {
  import opened Strings

  const OutputDir := "sprites_hd"

  function SitName(breed: string): string {
    breed + "_sit.png"
  }

  function WalkName(breed: string, i: nat): string {
    breed + "_walk_" + NatToString(i) + ".png"
  }

  /** `f'{dir}/{name}'`. */
  function InDir(dir: string, name: string): string {
    dir + "/" + name
  }

  /** Different walk frames of a breed get different files. */
  lemma WalkNamesDistinct(breed: string, i: nat, j: nat)
    requires WalkName(breed, i) == WalkName(breed, j)
    ensures i == j
  {
    var a, b := NatToString(i), NatToString(j);
    var p := breed + "_walk_";
    assert WalkName(breed, i) == p + (a + ".png");
    assert WalkName(breed, j) == p + (b + ".png");
    assert a + ".png" == (p + (a + ".png"))[|p|..];
    assert |a| == |b|;
    assert a == (a + ".png")[..|a|];
    assert b == (b + ".png")[..|b|];
    NatToStringInjective(i, j);
  }

  /** The sitting pose never overwrites a walk frame of the same breed:
      the character after `{breed}_` differs. */
  lemma SitIsNotWalk(breed: string, i: nat)
    ensures SitName(breed) != WalkName(breed, i)
  {
    assert SitName(breed)[|breed| + 1] == 's';
    assert WalkName(breed, i)[|breed| + 1] == 'w';
  }

  /** The same names placed in one directory stay apart. */
  lemma InDirInjective(dir: string, a: string, b: string)
    requires InDir(dir, a) == InDir(dir, b)
    ensures a == b
  {
    assert a == InDir(dir, a)[|dir| + 1..];
    assert b == InDir(dir, b)[|dir| + 1..];
  }

  /** One written sprite: the sitting pose or walk frame `frame` of a breed. */
  datatype Output = Sit(breed: string) | Walk(breed: string, frame: nat)

  function FileName(o: Output): string {
    match o
    case Sit(b) => InDir(OutputDir, SitName(b))
    case Walk(b, i) => InDir(OutputDir, WalkName(b, i))
  }

  /** Breed names that already differ in their first two letters. */
  predicate DistinctPrefixes(breeds: seq<string>) {
    (forall b :: b in breeds ==> |b| >= 2)
    && forall i, j :: 0 <= i < |breeds| && 0 <= j < |breeds| && i != j ==> breeds[i][..2] != breeds[j][..2]
  }

  /** Whenever the breeds are told apart by their first two letters, no two
      different sprites are written to the same file. */
  lemma FileNameInjective(breeds: seq<string>, o1: Output, o2: Output)
    requires DistinctPrefixes(breeds) && o1.breed in breeds && o2.breed in breeds
    requires FileName(o1) == FileName(o2)
    ensures o1 == o2
  {
    var b1, b2 := o1.breed, o2.breed;
    var d := |OutputDir| + 1;
    var n1 := FileName(o1);
    assert forall t :: 0 <= t < |b1| ==> n1[d + t] == b1[t];
    assert forall t :: 0 <= t < |b2| ==> n1[d + t] == b2[t];
    assert b1[..2] == b2[..2];
    assert b1 == b2;
    match (o1, o2)
    case (Sit(_), Sit(_)) =>
    case (Sit(_), Walk(_, i)) =>
      InDirInjective(OutputDir, SitName(b1), WalkName(b1, i));
      SitIsNotWalk(b1, i);
    case (Walk(_, i), Sit(_)) =>
      InDirInjective(OutputDir, WalkName(b1, i), SitName(b1));
      SitIsNotWalk(b1, i);
    case (Walk(_, i), Walk(_, j)) =>
      InDirInjective(OutputDir, WalkName(b1, i), WalkName(b1, j));
      WalkNamesDistinct(b1, i, j);
  }
}

=== FILE: pet.dfy ===
/** The desktop pet of `main.py` (class `CatPet`) as an immutable state
    record and one pure step function per event handler.

    The Tk window, the clock and the random generator are not part of the
    model: the clock reading, the screen size, the mouse position and the
    random picks are parameters, the window position is the geometry string
    the handlers read and write, and every handler that re-arms a Tk timer
    returns the delay it would pass to `after` instead. Times are integer
    milliseconds. */
module CatPet {
  import opened Wrappers
  import opened Strings
  import opened Files

  /** Side of the square window and sprite, in pixels. */
  const Size := 64
  /** Room kept free above the bottom of the screen (the taskbar). */
  const TaskbarMargin := 40
  /** An idle time beyond this puts the pet to sleep. */
  const SleepAfter := 30000
  /** An interaction at most this old wakes a sleeping pet. */
  const WakeWithin := 5000
  const MoodCheckEvery := 5000
  const PositionEvery := 100
  const HappyFor := 2000
  const MinBehaviorDelay := 3000
  const MaxBehaviorDelay := 8000

  datatype Mood = Idle | Happy | Sleep

  /** The behaviours `random_behavior` picks from; `Still` is the source's 'idle'. */
  datatype Behavior = Still | MoveLeft | MoveRight | MoveUp | MoveDown | Wander

  /** The pet's state: mood, current behaviour, velocity in pixels per
      position tick, time of the last click or drag, the names of the
      sprites that were loaded, and the sprite currently on the canvas. */
  datatype Pet = Pet(
    mood: Mood,
    behavior: Behavior,
    vx: int,
    vy: int,
    lastInteraction: int,
    sprites: set<string>,
    shown: Option<string>)

  /** A handler's new state and the delay, in ms, before the callback it arms runs. */
  datatype Tick = Tick(pet: Pet, after: nat)

  datatype Position = Position(x: int, y: int)

  /** The position tick's new state, where it moved the window (if it did), and its re-arm delay. */
  datatype Moved = Moved(pet: Pet, moveTo: Option<Position>, after: nat)

  // ---------------------------------------------------------------------
  // sprites

  function MoodName(m: Mood): string {
    match m
    case Idle => "idle"
    case Happy => "happy"
    case Sleep => "sleep"
  }

  /** The sprite `update_sprite` looks up for a mood: "cat_" followed by the mood's name. */
  function SpriteName(m: Mood): (name: string)
    ensures StartsWith(name, "cat_") && name[4..] == MoodName(m)
    ensures name in SpriteNames
  {
    match m
    case Idle => assert "cat_" + "idle" == "cat_idle"; "cat_" + MoodName(m)
    case Happy => assert "cat_" + "happy" == "cat_happy"; "cat_" + MoodName(m)
    case Sleep => assert "cat_" + "sleep" == "cat_sleep"; "cat_" + MoodName(m)
  }

  /** The three sprite names `load_sprites` tries. */
  const SpriteNames: set<string> := {"cat_idle", "cat_happy", "cat_sleep"}

  lemma SpriteNamesDistinct(m: Mood, n: Mood)
    requires SpriteName(m) == SpriteName(n)
    ensures m == n
  {
    assert SpriteName(m)[4..] == SpriteName(n)[4..];
  }

  /** The order in which `load_sprites` tries the three names. */
  const SpriteOrder: seq<string> := ["cat_idle", "cat_happy", "cat_sleep"]

  /** Sprite `i` is loaded from disk: the directory exists, its file loads,
      and no file tried before it raised (one `try` wraps the whole loop,
      so the first error ends it). */
  predicate LoadsFromDisk(dirExists: bool, files: seq<FileState>, i: int)
    requires |files| == |SpriteOrder| && 0 <= i < |SpriteOrder|
  {
    && dirExists
    && files[i] == Readable
    && forall j :: 0 <= j < i ==> files[j] != Broken
  }

  /** The loop of `load_sprites` from name `k` on, stopping at the first
      file that raises. */
  function LoadFrom(files: seq<FileState>, k: nat): (loaded: set<string>)
    requires |files| == |SpriteOrder| && k <= |SpriteOrder|
    ensures forall i :: 0 <= i < k ==> SpriteOrder[i] !in loaded
    ensures forall i :: k <= i < |SpriteOrder| ==>
      (SpriteOrder[i] in loaded <==> files[i] == Readable && forall j :: k <= j < i ==> files[j] != Broken)
    ensures loaded <= SpriteNames
    decreases |SpriteOrder| - k
  {
    if k == |SpriteOrder| || files[k] == Broken then {}
    else if files[k] == Readable then {SpriteOrder[k]} + LoadFrom(files, k + 1)
    else LoadFrom(files, k + 1)
  }

  /** `load_sprites`: the sprites loaded from the `sprites` directory, if
      it exists; when none was, generated stand-ins for all three. */
  function LoadSprites(dirExists: bool, files: seq<FileState>): (loaded: set<string>)
    requires |files| == |SpriteOrder|
    ensures loaded != {} && loaded <= SpriteNames
    ensures (exists i :: 0 <= i < |SpriteOrder| && LoadsFromDisk(dirExists, files, i)) ==>
      forall i :: 0 <= i < |SpriteOrder| ==> (SpriteOrder[i] in loaded <==> LoadsFromDisk(dirExists, files, i))
    ensures (forall i :: 0 <= i < |SpriteOrder| ==> !LoadsFromDisk(dirExists, files, i)) ==> loaded == SpriteNames
  {
    var fromDisk := if dirExists then LoadFrom(files, 0) else {};
    assert forall i :: 0 <= i < |SpriteOrder| ==> (SpriteOrder[i] in fromDisk <==> LoadsFromDisk(dirExists, files, i));
    assert SpriteNames == {SpriteOrder[0], SpriteOrder[1], SpriteOrder[2]};
    if fromDisk == {} then SpriteNames else fromDisk
  }

  /** A file that exists but cannot be opened hides every sprite after it:
      with the happy sprite broken, only the idle one is loaded even
      though the sleeping one is readable. */
  lemma BrokenFileEndsLoading()
    ensures LoadSprites(true, [Readable, Broken, Readable]) == {"cat_idle"}
  {
    assert LoadsFromDisk(true, [Readable, Broken, Readable], 0);
  }

  /** `update_sprite`: show the current mood's sprite if it was loaded,
      otherwise keep whatever is on the canvas. */
  function UpdateSprite(p: Pet): (q: Pet)
    ensures q.(shown := p.shown) == p
    ensures SpriteName(p.mood) in p.sprites ==> q.shown == Some(SpriteName(p.mood))
    ensures SpriteName(p.mood) !in p.sprites ==> q.shown == p.shown
  {
    var name := SpriteName(p.mood);
    if name in p.sprites then p.(shown := Some(name)) else p
  }

  /** The state `__init__` builds at time `now` from the loaded sprites,
      before its closing calls to `update_position`, `random_behavior`
      and `mood_check`; `Run` takes those first calls as its first
      events. */
  function Init(now: int, sprites: set<string>): Pet {
    UpdateSprite(Pet(Idle, Still, 0, 0, now, sprites, None))
  }

  // ---------------------------------------------------------------------
  // invariants

  /** Velocity components are -1, 0 or 1, and a sleeping pet does not move. */
  predicate Valid(p: Pet) {
    && -1 <= p.vx <= 1 && -1 <= p.vy <= 1
    && (p.mood == Sleep ==> p.vx == 0 && p.vy == 0)
  }

  /** With every sprite loaded, the canvas shows the current mood's sprite. */
  predicate ShowsMood(p: Pet) {
    SpriteNames <= p.sprites ==> p.shown == Some(SpriteName(p.mood))
  }

  lemma InitValid(now: int, sprites: set<string>)
    ensures Valid(Init(now, sprites)) && ShowsMood(Init(now, sprites))
    ensures Init(now, sprites).mood == Idle && Init(now, sprites).lastInteraction == now
  {
  }

  // ---------------------------------------------------------------------
  // handlers

  /** `on_left_click`: the pet becomes happy, the interaction time is
      recorded, and `reset_mood` is armed to run after `HappyFor` ms. */
  function OnLeftClick(p: Pet, now: int): (t: Tick)
    ensures t.pet.mood == Happy && t.pet.lastInteraction == now
    ensures t.pet.vx == p.vx && t.pet.vy == p.vy && t.pet.behavior == p.behavior
    ensures t.pet.sprites == p.sprites
    ensures t.after == HappyFor
  {
    Tick(UpdateSprite(p.(mood := Happy, lastInteraction := now)), HappyFor)
  }

  /** `reset_mood`: a happy pet calms down to idle; idle and sleeping pets are left alone. */
  function ResetMood(p: Pet): (q: Pet)
    ensures p.mood == Happy ==> q.mood == Idle
    ensures p.mood != Happy ==> q == p
    ensures q.(mood := p.mood, shown := p.shown) == p
  {
    if p.mood == Happy then UpdateSprite(p.(mood := Idle)) else p
  }

  /** `mood_check`: fall asleep after more than `SleepAfter` ms without
      interaction, wake up when the last interaction is at most
      `WakeWithin` ms old; between the two thresholds nothing happens. */
  function MoodCheck(p: Pet, now: int): (t: Tick)
    ensures t.after == MoodCheckEvery
    ensures p.mood != Sleep && now - p.lastInteraction > SleepAfter ==>
      t.pet.mood == Sleep && t.pet.vx == 0 && t.pet.vy == 0
    ensures p.mood == Sleep && now - p.lastInteraction <= WakeWithin ==>
      t.pet.mood == Idle && t.pet.vx == p.vx && t.pet.vy == p.vy
    ensures t.pet.mood != p.mood <==>
      (p.mood != Sleep && now - p.lastInteraction > SleepAfter) || (p.mood == Sleep && now - p.lastInteraction <= WakeWithin)
    ensures t.pet.mood == p.mood ==> t.pet == p
    ensures t.pet.behavior == p.behavior && t.pet.lastInteraction == p.lastInteraction && t.pet.sprites == p.sprites
  {
    var idle := now - p.lastInteraction;
    var q :=
      if idle > SleepAfter && p.mood != Sleep then UpdateSprite(p.(mood := Sleep, vx := 0, vy := 0))
      else if idle <= WakeWithin && p.mood == Sleep then UpdateSprite(p.(mood := Idle))
      else p;
    Tick(q, MoodCheckEvery)
  }

  /** The velocity a behaviour sets; `Wander` takes the two random picks. */
  function BehaviorVelocity(b: Behavior, wx: int, wy: int): (v: (int, int))
    ensures b == MoveLeft ==> v.0 < 0 && v.1 == 0
    ensures b == MoveRight ==> v.0 > 0 && v.1 == 0
    ensures b == MoveUp ==> v.0 == 0 && v.1 < 0
    ensures b == MoveDown ==> v.0 == 0 && v.1 > 0
    ensures b == Still ==> v == (0, 0)
    ensures b == Wander ==> v == (wx, wy)
    ensures b != Wander ==> -1 <= v.0 <= 1 && -1 <= v.1 <= 1 && (v.0 == 0 || v.1 == 0)
  {
    match b
    case MoveLeft => (-1, 0)
    case MoveRight => (1, 0)
    case MoveUp => (0, -1)
    case MoveDown => (0, 1)
    case Wander => (wx, wy)
    case Still => (0, 0)
  }

  /** `random_behavior`: unless asleep, adopt the behaviour `choice` (the
      source's `random.choice`) and its velocity; `wx` and `wy` are the two
      `randint(-1, 1)` picks of a wander and `delay` the `randint(3000, 8000)`
      re-arm delay. */
  function RandomBehavior(p: Pet, choice: Behavior, wx: int, wy: int, delay: int): (t: Tick)
    requires -1 <= wx <= 1 && -1 <= wy <= 1
    requires MinBehaviorDelay <= delay <= MaxBehaviorDelay
    ensures MinBehaviorDelay <= t.after <= MaxBehaviorDelay
    ensures p.mood == Sleep ==> t.pet == p
    ensures p.mood != Sleep ==> t.pet.behavior == choice && (t.pet.vx, t.pet.vy) == BehaviorVelocity(choice, wx, wy)
    ensures p.mood != Sleep ==> -1 <= t.pet.vx <= 1 && -1 <= t.pet.vy <= 1
    ensures t.pet.mood == p.mood && t.pet.lastInteraction == p.lastInteraction && t.pet.shown == p.shown
  {
    var q :=
      if p.mood != Sleep then
        var v := BehaviorVelocity(choice, wx, wy);
        p.(behavior := choice, vx := v.0, vy := v.1)
      else p;
    Tick(q, delay)
  }

  // ---------------------------------------------------------------------
  // window geometry

  /** The geometry string `WxH+X+Y` the window is given for a position. */
  function FormatGeometry(pos: Position): string {
    IntToString(Size) + "x" + IntToString(Size) + "+" + IntToString(pos.x) + "+" + IntToString(pos.y)
  }

  /** `update_position` reads X and Y as fields 1 and 2 of the geometry
      split on '+'; fewer than three fields, or a field `int()` rejects,
      gives no position. */
  function ParseGeometry(g: string): Option<Position> {
    var parts := Split(g, "+");
    if |parts| < 3 then None
    else
      match (ParseInt(parts[1]), ParseInt(parts[2]))
      case (Some(x), Some(y)) => Some(Position(x, y))
      case _ => None
  }

  predicate NoPlus(s: string) {
    forall i :: 0 <= i < |s| ==> s[i] != '+'
  }

  lemma SplitNoPlus(s: string)
    requires NoPlus(s)
    ensures Split(s, "+") == [s]
  {
    forall i | 0 <= i < |s|
      ensures !StartsWith(s[i..], "+")
    {
      assert s[i..][..1] == [s[i]];
    }
    SplitWithoutSep(s, "+");
  }

  lemma SplitThreeFields(a: string, b: string, c: string)
    requires NoPlus(a) && NoPlus(b) && NoPlus(c)
    ensures Split(a + "+" + b + "+" + c, "+") == [a, b, c]
  {
    var bc := b + "+" + c;
    assert Split(bc, "+") == [b, c] by {
      SplitAround(b, "+", c);
      SplitNoPlus(b);
      SplitNoPlus(c);
    }
    assert a + "+" + b + "+" + c == a + "+" + bc;
    SplitAround(a, "+", bc);
    SplitNoPlus(a);
  }

  /** Reading back a geometry string the pet wrote gives the position it wrote. */
  lemma {:induction false} GeometryRoundTrip(pos: Position)
    ensures ParseGeometry(FormatGeometry(pos)) == Some(pos)
  {
    var size := IntToString(Size) + "x" + IntToString(Size);
    var x := IntToString(pos.x);
    var y := IntToString(pos.y);
    assert NoPlus(x) && NoPlus(y);
    assert NoPlus(size) by {
      var s := IntToString(Size);
      assert forall i :: 0 <= i < |size| ==> size[i] == 'x' || size[i] in s;
    }
    assert FormatGeometry(pos) == size + "+" + x + "+" + y;
    SplitThreeFields(size, x, y);
    ParseIntToString(pos.x);
    ParseIntToString(pos.y);
  }

  // ---------------------------------------------------------------------
  // movement

  datatype Axis = Axis(pos: int, vel: int)

  function Max(a: int, b: int): int {
    if a >= b then a else b
  }

  /** One axis of `update_position`: step by the velocity; a candidate at or
      beyond either edge of [0, hi] reverses the velocity and is clamped
      into the range. */
  function Bounce(pos: int, vel: int, hi: int): (r: Axis)
    ensures 0 <= r.pos <= Max(0, hi)
    ensures 0 < pos + vel < hi ==> r == Axis(pos + vel, vel)
    ensures pos + vel <= 0 || pos + vel >= hi ==> r.vel == -vel
    ensures pos + vel <= 0 ==> r.pos == 0
    ensures 0 <= hi <= pos + vel ==> r.pos == hi
  {
    var candidate := pos + vel;
    if candidate <= 0 || candidate >= hi then
      Axis(if candidate < 0 then 0 else if candidate > hi then Max(0, hi) else Max(0, candidate), -vel)
    else Axis(candidate, vel)
  }

  /** Largest X and Y that keep the window on a screen of the given size. */
  function RightLimit(screenWidth: int): int { screenWidth - Size }
  function BottomLimit(screenHeight: int): int { screenHeight - Size - TaskbarMargin }

  /** `update_position`: an awake pet whose window position can be read
      steps by its velocity, bouncing off the screen edges, and the window
      is moved there; it re-arms after `PositionEvery` ms in every case. */
  function UpdatePosition(p: Pet, geometry: string, screenWidth: int, screenHeight: int): (m: Moved)
    ensures m.after == PositionEvery
    ensures p.mood == Sleep || ParseGeometry(geometry).None? ==> m.pet == p && m.moveTo.None?
    ensures p.mood != Sleep && ParseGeometry(geometry).Some? ==>
      && m.moveTo.Some?
      && 0 <= m.moveTo.value.x <= Max(0, RightLimit(screenWidth))
      && 0 <= m.moveTo.value.y <= Max(0, BottomLimit(screenHeight))
    ensures m.pet.vx == p.vx || m.pet.vx == -p.vx
    ensures m.pet.vy == p.vy || m.pet.vy == -p.vy
    ensures m.pet.(vx := p.vx, vy := p.vy) == p
    ensures p.mood != Sleep && ParseGeometry(geometry).Some? ==>
      var cur := ParseGeometry(geometry).value;
      var h := Bounce(cur.x, p.vx, RightLimit(screenWidth));
      var v := Bounce(cur.y, p.vy, BottomLimit(screenHeight));
      m == Moved(p.(vx := h.vel, vy := v.vel), Some(Position(h.pos, v.pos)), PositionEvery)
  {
    if p.mood == Sleep then Moved(p, None, PositionEvery)
    else
      match ParseGeometry(geometry)
      case None => Moved(p, None, PositionEvery)
      case Some(cur) =>
        var h := Bounce(cur.x, p.vx, RightLimit(screenWidth));
        var v := Bounce(cur.y, p.vy, BottomLimit(screenHeight));
        Moved(p.(vx := h.vel, vy := v.vel), Some(Position(h.pos, v.pos)), PositionEvery)
  }

  /** A tick of an awake pet at a readable position: on each axis the
      window steps by the velocity when the step lands strictly inside
      the screen, and otherwise the velocity is reversed and the window
      stops at the edge it reached. */
  lemma TickBounces(p: Pet, geometry: string, screenWidth: int, screenHeight: int)
    requires p.mood != Sleep && ParseGeometry(geometry).Some?
    ensures var cur := ParseGeometry(geometry).value;
      var m := UpdatePosition(p, geometry, screenWidth, screenHeight);
      var nx := cur.x + p.vx;
      var ny := cur.y + p.vy;
      && m.moveTo.Some?
      && (0 < nx < RightLimit(screenWidth) ==> m.pet.vx == p.vx && m.moveTo.value.x == nx)
      && (nx <= 0 || nx >= RightLimit(screenWidth) ==> m.pet.vx == -p.vx)
      && (nx <= 0 ==> m.moveTo.value.x == 0)
      && (0 <= RightLimit(screenWidth) <= nx ==> m.moveTo.value.x == RightLimit(screenWidth))
      && (0 < ny < BottomLimit(screenHeight) ==> m.pet.vy == p.vy && m.moveTo.value.y == ny)
      && (ny <= 0 || ny >= BottomLimit(screenHeight) ==> m.pet.vy == -p.vy)
      && (ny <= 0 ==> m.moveTo.value.y == 0)
      && (0 <= BottomLimit(screenHeight) <= ny ==> m.moveTo.value.y == BottomLimit(screenHeight))
  {
  }

  /** `on_drag`: centre the window on the mouse and record the interaction. */
  function OnDrag(p: Pet, mouseX: int, mouseY: int, now: int): (r: (Pet, Position))
    ensures r.1.x + Size / 2 == mouseX && r.1.y + Size / 2 == mouseY
    ensures r.0 == p.(lastInteraction := now)
  {
    (p.(lastInteraction := now), Position(mouseX - Size / 2, mouseY - Size / 2))
  }

  // ---------------------------------------------------------------------
  // the event loop

  /** The pet together with the window's geometry string. */
  datatype World = World(pet: Pet, geometry: string)

  datatype Event =
    | LeftClick(now: int)
    | Drag(mouseX: int, mouseY: int, now: int)
    | ResetTimer
    | MoodTimer(now: int)
    | BehaviorTimer(choice: Behavior, wx: int, wy: int, delay: int)
    | PositionTimer(screenWidth: int, screenHeight: int)

  /** The random picks of a behaviour timer lie in the ranges `randint` draws from. */
  predicate WellFormed(e: Event) {
    e.BehaviorTimer? ==> -1 <= e.wx <= 1 && -1 <= e.wy <= 1 && MinBehaviorDelay <= e.delay <= MaxBehaviorDelay
  }

  /** One event handled by the matching handler; a window move rewrites the geometry. */
  function Step(w: World, e: Event): World
    requires WellFormed(e)
  {
    match e
    case LeftClick(now) => w.(pet := OnLeftClick(w.pet, now).pet)
    case Drag(px, py, now) =>
      var r := OnDrag(w.pet, px, py, now);
      World(r.0, FormatGeometry(r.1))
    case ResetTimer => w.(pet := ResetMood(w.pet))
    case MoodTimer(now) => w.(pet := MoodCheck(w.pet, now).pet)
    case BehaviorTimer(choice, wx, wy, delay) => w.(pet := RandomBehavior(w.pet, choice, wx, wy, delay).pet)
    case PositionTimer(sw, sh) =>
      var m := UpdatePosition(w.pet, w.geometry, sw, sh);
      World(m.pet, if m.moveTo.Some? then FormatGeometry(m.moveTo.value) else w.geometry)
  }

  function Run(w: World, es: seq<Event>): World
    requires forall i :: 0 <= i < |es| ==> WellFormed(es[i])
    decreases |es|
  {
    if |es| == 0 then w else Run(Step(w, es[0]), es[1..])
  }

  /** Every handler keeps velocities in {-1, 0, 1}, keeps a sleeping pet
      still, and keeps the canvas showing the mood's sprite. */
  lemma StepPreserves(w: World, e: Event)
    requires WellFormed(e) && Valid(w.pet) && ShowsMood(w.pet)
    ensures Valid(Step(w, e).pet) && ShowsMood(Step(w, e).pet)
    ensures Step(w, e).pet.sprites == w.pet.sprites
  {
  }

  /** The invariants hold along any sequence of events. */
  lemma {:induction false} RunPreserves(w: World, es: seq<Event>)
    requires forall i :: 0 <= i < |es| ==> WellFormed(es[i])
    requires Valid(w.pet) && ShowsMood(w.pet)
    ensures Valid(Run(w, es).pet) && ShowsMood(Run(w, es).pet)
    decreases |es|
  {
    if |es| > 0 {
      StepPreserves(w, es[0]);
      RunPreserves(Step(w, es[0]), es[1..]);
    }
  }

  /** Without a click or a drag, and with every mood check late enough
      not to wake it, a sleeping pet stays asleep and still. */
  lemma {:induction false} SleepPersists(w: World, es: seq<Event>)
    requires forall i :: 0 <= i < |es| ==> WellFormed(es[i])
    requires Valid(w.pet) && w.pet.mood == Sleep
    requires forall i :: 0 <= i < |es| ==> !es[i].LeftClick? && !es[i].Drag?
    requires forall i :: 0 <= i < |es| && es[i].MoodTimer? ==> es[i].now - w.pet.lastInteraction > WakeWithin
    ensures Run(w, es).pet.mood == Sleep && Run(w, es).pet.vx == 0 && Run(w, es).pet.vy == 0
    ensures Run(w, es).pet.lastInteraction == w.pet.lastInteraction
    decreases |es|
  {
    if |es| > 0 {
      var w' := Step(w, es[0]);
      assert w'.pet.mood == Sleep && w'.pet.lastInteraction == w.pet.lastInteraction;
      assert forall i :: 0 <= i < |es[1..]| ==> es[1..][i] == es[i + 1];
      SleepPersists(w', es[1..]);
    }
  }

  /** A click makes the pet happy; mood checks within `SleepAfter` ms leave
      it happy, and the armed `reset_mood` then returns it to idle. */
  lemma ClickThenReset(p: Pet, now: int, checkAt: int)
    requires checkAt - now <= SleepAfter
    ensures MoodCheck(OnLeftClick(p, now).pet, checkAt).pet.mood == Happy
    ensures ResetMood(MoodCheck(OnLeftClick(p, now).pet, checkAt).pet).mood == Idle
  {
  }

  /** Dragging a sleeping pet wakes it at the next mood check, because the
      checks come every `MoodCheckEvery` ms and wake on an interaction at
      most `WakeWithin` ms old. */
  lemma DragWakesAtNextCheck(w: World, px: int, py: int, now: int, checkAt: int)
    requires w.pet.mood == Sleep
    requires now <= checkAt <= now + MoodCheckEvery
    ensures MoodCheck(Step(w, Drag(px, py, now)).pet, checkAt).pet.mood == Idle
  {
  }

  /** A position tick writes the geometry of the place `UpdatePosition` moved to, if any. */
  lemma PositionTimerGeometry(w: World, screenWidth: int, screenHeight: int, m: Moved)
    requires m == UpdatePosition(w.pet, w.geometry, screenWidth, screenHeight)
    ensures Step(w, PositionTimer(screenWidth, screenHeight)).geometry ==
      if m.moveTo.Some? then FormatGeometry(m.moveTo.value) else w.geometry
  {
  }

  /** After a position tick of an awake pet whose window position is
      readable, the window's geometry reads back as an on-screen position. */
  lemma TickKeepsOnScreen(w: World, screenWidth: int, screenHeight: int)
    requires w.pet.mood != Sleep && ParseGeometry(w.geometry).Some?
    ensures var pos := ParseGeometry(Step(w, PositionTimer(screenWidth, screenHeight)).geometry);
      && pos.Some?
      && 0 <= pos.value.x <= Max(0, RightLimit(screenWidth))
      && 0 <= pos.value.y <= Max(0, BottomLimit(screenHeight))
  {
    var m := UpdatePosition(w.pet, w.geometry, screenWidth, screenHeight);
    PositionTimerGeometry(w, screenWidth, screenHeight, m);
    GeometryRoundTrip(m.moveTo.value);
  }

  /** A drag leaves the window where the next position tick will read it. */
  lemma DragIsReadBack(w: World, px: int, py: int, now: int)
    ensures ParseGeometry(Step(w, Drag(px, py, now)).geometry) == Some(Position(px - Size / 2, py - Size / 2))
  {
    GeometryRoundTrip(Position(px - Size / 2, py - Size / 2));
  }
}

=== FILE: popshop.dfy ===
/** pop_shop_integrator.py: cut walk frames out of a Pop Shop spritesheet
    and save them as a breed's sitting pose and six walk frames. Frames
    are handled as crop boxes; the pixels inside them are not modelled. */
module PopShop {
  import opened Wrappers
  import opened SpriteFiles
  import opened Files

  /** `analyze_spritesheet` assumes 32x32 sprites. */
  const SpriteSize := 32

  datatype GridSize = GridSize(cols: nat, rows: nat)

  /** The estimated grid: how many whole sprites fit across and down. */
  function AnalyzeSpritesheet(width: nat, height: nat): (g: GridSize)
    ensures g.cols * SpriteSize <= width < (g.cols + 1) * SpriteSize
    ensures g.rows * SpriteSize <= height < (g.rows + 1) * SpriteSize
  {
    GridSize(width / SpriteSize, height / SpriteSize)
  }

  /** A crop box (left, top, right, bottom), right and bottom exclusive. */
  datatype Box = Box(left: int, top: int, right: int, bottom: int)

  /** The box of the sprite in column `col` of row `row`. */
  function CellBox(size: int, row: int, col: int): Box {
    Box(col * size, row * size, col * size + size, row * size + size)
  }

  /** `extract_walk_frames`: the boxes of `count` consecutive sprites of
      one row, starting at column `startCol`. A count of zero or less
      gives no frames. */
  method ExtractWalkFrames(size: int, row: int, startCol: int, count: int) returns (frames: seq<Box>)
    ensures |frames| == if count < 0 then 0 else count
    ensures forall i :: 0 <= i < |frames| ==> frames[i] == CellBox(size, row, startCol + i)
    ensures forall i :: 0 <= i < |frames| ==>
      frames[i].right - frames[i].left == size && frames[i].bottom - frames[i].top == size
    ensures forall i :: 0 <= i < |frames| ==> frames[i].top == row * size
    ensures forall i :: 0 <= i && i + 1 < |frames| ==> frames[i + 1].left == frames[i].right
  {
    frames := [];
    var i := 0;
    while i < count
      invariant 0 <= i && (count >= 0 ==> i <= count) && (count < 0 ==> i == 0)
      invariant |frames| == i
      invariant forall k :: 0 <= k < i ==> frames[k] == CellBox(size, row, startCol + k)
    {
      frames := frames + [CellBox(size, row, startCol + i)];
      i := i + 1;
    }
  }

  /** Boxes of one row that are adjacent never overlap: each later box
      starts at or after the end of every earlier one, when sprites have
      a positive size. */
  lemma FramesDisjoint(size: int, row: int, startCol: int, i: int, j: int)
    requires size > 0 && i < j
    ensures CellBox(size, row, startCol + i).right <= CellBox(size, row, startCol + j).left
  {
    assert (startCol + i + 1) * size <= (startCol + j) * size;
  }

  /** Walk frames: the first six, or, with fewer than six, the frames
      twice over cut to six. */
  function SelectWalkFrames<T>(frames: seq<T>): (walk: seq<T>)
    ensures |frames| >= 6 ==> walk == frames[..6]
    ensures |walk| == if |frames| >= 3 then 6 else 2 * |frames|
  {
    var doubled := if |frames| >= 6 then frames[..6] else frames + frames;
    if |doubled| <= 6 then doubled else doubled[..6]
  }

  /** Walk frame i is input frame i, wrapping round to the start when the
      input is short. */
  lemma SelectWalkFramesCycles<T>(frames: seq<T>)
    ensures forall i :: 0 <= i < |SelectWalkFrames(frames)| ==> SelectWalkFrames(frames)[i] == frames[i % |frames|]
  {
    var walk := SelectWalkFrames(frames);
    var n := |frames|;
    forall i | 0 <= i < |walk|
      ensures walk[i] == frames[i % n]
    {
      if n >= 6 {
        assert walk[i] == frames[i];
        ModBelow(i, n);
      } else if i < n {
        assert walk[i] == (frames + frames)[i];
        ModBelow(i, n);
      } else {
        assert walk[i] == (frames + frames)[i] == frames[i - n];
        ModBelow(i - n, n);
        assert i % n == (i - n) % n;
      }
    }
  }

  lemma ModBelow(i: int, n: int)
    requires 0 <= i < n
    ensures i % n == i
  {
  }

  /** The sitting pose and the walk frames of one breed, with the files
      they are saved to. */
  function SaveFrames<T>(frames: seq<T>, breed: string): (saved: Result<seq<(Output, T)>, string>)
    ensures saved.Err? <==> |frames| == 0
    ensures saved.Ok? ==> (|saved.value| == 1 + |SelectWalkFrames(frames)|
      && saved.value[0] == (Sit(breed), frames[0])
      && forall i :: 0 <= i < |SelectWalkFrames(frames)| ==>
        saved.value[1 + i] == (Walk(breed, i), SelectWalkFrames(frames)[i]))
  {
    if |frames| == 0 then Err("IndexError: list index out of range")
    else
      var walk := SelectWalkFrames(frames);
      Ok([(Sit(breed), frames[0])] + seq(|walk|, i requires 0 <= i < |walk| => (Walk(breed, i), walk[i])))
  }

  /** One breed's saves never write the same file twice. */
  lemma SavedFilesDistinct<T>(frames: seq<T>, breed: string)
    requires |breed| >= 2
    ensures SaveFrames(frames, breed).Ok? ==>
      forall i, j :: 0 <= i < j < |SaveFrames(frames, breed).value| ==>
        FileName(SaveFrames(frames, breed).value[i].0) != FileName(SaveFrames(frames, breed).value[j].0)
  {
    if SaveFrames(frames, breed).Ok? {
      var saved := SaveFrames(frames, breed).value;
      forall i, j | 0 <= i < j < |saved|
        ensures FileName(saved[i].0) != FileName(saved[j].0)
      {
        if FileName(saved[i].0) == FileName(saved[j].0) {
          FileNameInjective([breed], saved[i].0, saved[j].0);
        }
      }
    }
  }

  /** The spritesheets, by breed, in the order they are processed. */
  const BreedFiles: seq<(string, string)> := [
    ("orange", "orange_0.png"),
    ("tuxedo", "black_0.png"),
    ("siamese", "seal_point_0.png"),
    ("tabby", "grey_0.png"),
    ("tortie", "calico_0.png"),
    ("calico", "white_grey_0.png")
  ]

  const BasePath := "pop_shop_cats/Cats Download"

  /** `os.path.join(base_path, filename)`. */
  function SourcePath(filename: string): string {
    BasePath + "/" + filename
  }

  /** Walking animations sit in row 4 of the sheet, from column 0, six
      frames long. */
  const WalkRow := 4
  const WalkStartCol := 0
  const WalkCount := 6

  /** The boxes of the walking row, as `extract_walk_frames` gives them. */
  function WalkBoxes(): (boxes: seq<Box>)
    ensures |boxes| == WalkCount
    ensures forall i :: 0 <= i < WalkCount ==> boxes[i] == CellBox(SpriteSize, WalkRow, WalkStartCol + i)
  {
    seq(WalkCount, i requires 0 <= i < WalkCount => CellBox(SpriteSize, WalkRow, WalkStartCol + i))
  }

  /** How far `integrate_pop_shop_cats` got: the frames it saved, in
      order, and the table entry whose sheet raised, if one did. */
  datatype Integration = Integration(saved: seq<(Output, Box)>, raisedAt: Option<nat>)

  /** Entry `j` is processed: its sheet opens and no sheet before it, from
      entry `k` on, raised. `sheets[j]` is the state of
      `SourcePath(BreedFiles[j].1)`. */
  predicate Processed(sheets: seq<FileState>, k: int, j: int)
    requires |sheets| == |BreedFiles|
  {
    && 0 <= k <= j < |BreedFiles|
    && sheets[j] == Readable
    && forall i :: k <= i < j ==> sheets[i] != Broken
  }

  /** `integrate_pop_shop_cats` from entry `k` on: a missing sheet is
      skipped; a sheet that opens has its walking row cut and saved; a
      sheet that exists but does not open makes `Image.open` raise, and
      nothing guards the loop, so the run ends there. The save cannot
      fail, because the walking row always yields six boxes. */
  function IntegrateFrom(sheets: seq<FileState>, k: nat): (run: Integration)
    requires |sheets| == |BreedFiles| && k <= |BreedFiles|
    ensures run.raisedAt.Some? <==> exists j :: k <= j < |BreedFiles| && sheets[j] == Broken
    ensures run.raisedAt.Some? ==>
      && k <= run.raisedAt.value < |BreedFiles|
      && sheets[run.raisedAt.value] == Broken
      && forall i :: k <= i < run.raisedAt.value ==> sheets[i] != Broken
    decreases |BreedFiles| - k
  {
    if k == |BreedFiles| then Integration([], None)
    else
      match sheets[k]
      case Missing => IntegrateFrom(sheets, k + 1)
      case Broken => Integration([], Some(k))
      case Readable =>
        var rest := IntegrateFrom(sheets, k + 1);
        BreedOutputs(BreedFiles[k].0);
        Integration(SaveFrames(WalkBoxes(), BreedFiles[k].0).value + rest.saved, rest.raisedAt)
  }

  function Integrate(sheets: seq<FileState>): Integration
    requires |sheets| == |BreedFiles|
  {
    IntegrateFrom(sheets, 0)
  }

  /** What one present breed contributes: the sitting pose from the first
      walking box and six walk frames, one per box. */
  lemma BreedOutputs(breed: string)
    ensures SaveFrames(WalkBoxes(), breed).Ok?
    ensures |SaveFrames(WalkBoxes(), breed).value| == 7
    ensures SaveFrames(WalkBoxes(), breed).value[0] == (Sit(breed), CellBox(SpriteSize, WalkRow, 0))
    ensures forall i :: 0 <= i < 6 ==> SaveFrames(WalkBoxes(), breed).value[1 + i] == (Walk(breed, i), CellBox(SpriteSize, WalkRow, i))
  {
    assert SelectWalkFrames(WalkBoxes()) == WalkBoxes();
  }

  /** The table entries from `k` on that are processed. */
  function ProcessedFrom(sheets: seq<FileState>, k: nat): set<nat>
    requires |sheets| == |BreedFiles|
  {
    set j: nat | k <= j < |BreedFiles| && Processed(sheets, k, j)
  }

  lemma ProcessedFromStep(sheets: seq<FileState>, k: nat)
    requires |sheets| == |BreedFiles| && k < |BreedFiles|
    ensures sheets[k] == Readable ==> ProcessedFrom(sheets, k) == ProcessedFrom(sheets, k + 1) + {k}
    ensures sheets[k] == Missing ==> ProcessedFrom(sheets, k) == ProcessedFrom(sheets, k + 1)
    ensures sheets[k] == Broken ==> ProcessedFrom(sheets, k) == {}
    ensures k !in ProcessedFrom(sheets, k + 1)
  {
    if sheets[k] != Broken {
      forall j | k + 1 <= j < |BreedFiles|
        ensures Processed(sheets, k, j) <==> Processed(sheets, k + 1, j)
      {
      }
    }
  }

  /** Seven files are written per processed breed, and every file written
      belongs to one; nothing is written for a missing sheet, nor for any
      sheet after the first that does not open. */
  lemma {:induction false} IntegrateWrites(sheets: seq<FileState>, k: nat)
    requires |sheets| == |BreedFiles| && k <= |BreedFiles|
    ensures |IntegrateFrom(sheets, k).saved| == 7 * |ProcessedFrom(sheets, k)|
    ensures forall e :: e in IntegrateFrom(sheets, k).saved ==>
      exists j :: j in ProcessedFrom(sheets, k) && e.0.breed == BreedFiles[j].0
    ensures forall j, e :: j in ProcessedFrom(sheets, k) && e in SaveFrames(WalkBoxes(), BreedFiles[j].0).value ==>
      e in IntegrateFrom(sheets, k).saved
    decreases |BreedFiles| - k
  {
    if k < |BreedFiles| {
      IntegrateWrites(sheets, k + 1);
      BreedOutputs(BreedFiles[k].0);
      ProcessedFromStep(sheets, k);
      var rest := IntegrateFrom(sheets, k + 1).saved;
      if sheets[k] == Readable {
        var files := SaveFrames(WalkBoxes(), BreedFiles[k].0).value;
        assert IntegrateFrom(sheets, k).saved == files + rest;
        forall j, e | j in ProcessedFrom(sheets, k) && e in SaveFrames(WalkBoxes(), BreedFiles[j].0).value
          ensures e in IntegrateFrom(sheets, k).saved
        {
          if j != k {
            assert j in ProcessedFrom(sheets, k + 1);
          }
        }
        forall e | e in files
          ensures e.0.breed == BreedFiles[k].0
        {
          var i :| 0 <= i < |files| && files[i] == e;
          assert i == 0 || files[1 + (i - 1)].0 == Walk(BreedFiles[k].0, i - 1);
        }
      } else if sheets[k] == Missing {
        assert IntegrateFrom(sheets, k).saved == rest;
      }
    } else {
      assert ProcessedFrom(sheets, k) == {};
    }
  }

  /** An unreadable tuxedo sheet ends the run: the orange sheet's seven
      files are written, and the four readable sheets after it get
      none. */
  lemma BrokenSheetEndsIntegration(sheets: seq<FileState>)
    requires sheets == [Readable, Broken, Readable, Readable, Readable, Readable]
    ensures Integrate(sheets).raisedAt == Some(1)
    ensures |Integrate(sheets).saved| == 7
    ensures forall e :: e in Integrate(sheets).saved ==> e.0.breed == "orange"
  {
    OnlyFirstProcessed(sheets);
    RaisesAtSecond(sheets);
  }

  /** With the first sheet readable and the second broken, only the first
      breed is processed. */
  lemma OnlyFirstProcessed(sheets: seq<FileState>)
    requires |sheets| == |BreedFiles| && sheets[0] == Readable && sheets[1] == Broken
    ensures |Integrate(sheets).saved| == 7
    ensures forall e :: e in Integrate(sheets).saved ==> e.0.breed == BreedFiles[0].0
  {
    IntegrateWrites(sheets, 0);
    assert Processed(sheets, 0, 0);
    assert ProcessedFrom(sheets, 0) == {0};
  }

  /** ... and the run raises at the second. */
  lemma RaisesAtSecond(sheets: seq<FileState>)
    requires |sheets| == |BreedFiles| && sheets[0] != Broken && sheets[1] == Broken
    ensures Integrate(sheets).raisedAt == Some(1)
  {
    assert sheets[1] == Broken;
  }
}

=== FILE: resize.dfy ===
/** The nearest-neighbour enlargement cat_sprites.py applies before
    saving: a 32x32 canvas becomes a 64x64 image. */
module Resize {
  import opened Markings

  /** The canvas is 32x32; it is scaled by 2 before saving. */
  const Size := 32
  const Scale := 2
  const FinalSize := Size * Scale

  /** A 32x32 image. */
  predicate Canvas(img: Image) {
    |img| == Size && forall y :: 0 <= y < Size ==> |img[y]| == Size
  }

  /** A 64x64 image, the size sprites are saved at. */
  predicate Final(img: Image) {
    |img| == FinalSize && forall y :: 0 <= y < FinalSize ==> |img[y]| == FinalSize
  }

  /** `img.resize((64, 64), Image.NEAREST)` of a 32x32 canvas: every pixel
      becomes a `Scale` x `Scale` block. */
  function Upscale(img: Image): (out: Image)
    requires Canvas(img)
    ensures Final(out)
    ensures forall y, x :: 0 <= y < FinalSize && 0 <= x < FinalSize ==> out[y][x] == img[y / Scale][x / Scale]
  {
    seq(FinalSize, y requires 0 <= y < FinalSize => seq(FinalSize, x requires 0 <= x < FinalSize => img[y / Scale][x / Scale]))
  }

  /** Taking the top-left pixel of every block, the inverse of `Upscale`. */
  function Downscale(img: Image): (out: Image)
    requires Final(img)
    ensures Canvas(out)
  {
    seq(Size, y requires 0 <= y < Size => seq(Size, x requires 0 <= x < Size => img[Scale * y][Scale * x]))
  }

  /** The resize loses nothing: each block holds one canvas pixel four
      times, and sampling the blocks gives the canvas back. */
  lemma {:induction false} UpscaleRoundTrip(img: Image)
    requires Canvas(img)
    ensures Downscale(Upscale(img)) == img
    ensures forall y, x :: 0 <= y < Size && 0 <= x < Size ==>
      && Upscale(img)[Scale * y][Scale * x] == img[y][x]
      && Upscale(img)[Scale * y + 1][Scale * x] == img[y][x]
      && Upscale(img)[Scale * y][Scale * x + 1] == img[y][x]
      && Upscale(img)[Scale * y + 1][Scale * x + 1] == img[y][x]
  {
    var up := Upscale(img);
    forall y, x | 0 <= y < Size && 0 <= x < Size
      ensures up[Scale * y][Scale * x] == img[y][x] && up[Scale * y + 1][Scale * x] == img[y][x]
      ensures up[Scale * y][Scale * x + 1] == img[y][x] && up[Scale * y + 1][Scale * x + 1] == img[y][x]
    {
      assert (Scale * y) / Scale == y && (Scale * y + 1) / Scale == y;
      assert (Scale * x) / Scale == x && (Scale * x + 1) / Scale == x;
    }
    var down := Downscale(up);
    forall y | 0 <= y < Size
      ensures down[y] == img[y]
    {
      assert forall x :: 0 <= x < Size ==> down[y][x] == up[Scale * y][Scale * x];
    }
  }
}

=== FILE: strings.dfy ===
/** The handful of Python `str` operations the program leans on, written out
    over `seq<char>`: prefix and substring tests, `split`/`join` on a
    separator, `strip`, `lower`, and decimal conversion to and from `int`. */
module Strings {
  import opened Wrappers

  /** `s.startswith(p)` */
  predicate StartsWith(s: string, p: string) {
    |p| <= |s| && s[..|p|] == p
  }

  /** `p in s`: `p` occurs in `s` starting at some position. */
  predicate Contains(s: string, p: string)
    decreases |s|
  {
    StartsWith(s, p) || (|s| > 0 && Contains(s[1..], p))
  }

  /** `Contains` agrees with the positional definition of an occurrence. */
  lemma {:induction false} ContainsAt(s: string, p: string)
    ensures Contains(s, p) <==> exists i :: 0 <= i <= |s| && StartsWith(s[i..], p)
    decreases |s|
  {
    assert s[0..] == s;
    if |s| > 0 {
      ContainsAt(s[1..], p);
      if Contains(s[1..], p) {
        var i :| 0 <= i <= |s[1..]| && StartsWith(s[1..][i..], p);
        assert s[1..][i..] == s[i + 1..];
      }
      if exists i :: 0 <= i <= |s| && StartsWith(s[i..], p) {
        var i :| 0 <= i <= |s| && StartsWith(s[i..], p);
        if i > 0 {
          assert s[1..][i - 1..] == s[i..];
        }
      }
    }
  }

  /** Text that starts with `p` still contains `p` after anything is put in front of it. */
  lemma {:induction false} ContainsAfter(a: string, b: string, p: string)
    requires StartsWith(b, p)
    ensures Contains(a + b, p)
    decreases |a|
  {
    if |a| == 0 {
      assert a + b == b;
    } else {
      assert (a + b)[1..] == a[1..] + b;
      ContainsAfter(a[1..], b, p);
    }
  }

  /** Text missing one of the characters of `p` does not contain `p`. */
  lemma {:induction false} MissingCharNotContained(s: string, p: string, i: nat)
    requires i < |p| && forall k :: 0 <= k < |s| ==> s[k] != p[i]
    ensures !Contains(s, p)
    decreases |s|
  {
    if |p| <= |s| {
      assert s[..|p|][i] == s[i] != p[i];
    }
    if |s| > 0 {
      assert forall k :: 0 <= k < |s[1..]| ==> s[1..][k] == s[k + 1];
      MissingCharNotContained(s[1..], p, i);
    }
  }

  // ---------------------------------------------------------------------
  // split / join

  /** `s.split(sep)` for a non-empty separator: cut at every occurrence of
      `sep`, scanning left to right without overlap. */
  function Split(s: string, sep: string): (parts: seq<string>)
    requires |sep| > 0
    ensures |parts| >= 1
    decreases |s|
  {
    if |s| == 0 then [""]
    else if StartsWith(s, sep) then [""] + Split(s[|sep|..], sep)
    else
      var rest := Split(s[1..], sep);
      [[s[0]] + rest[0]] + rest[1..]
  }

  /** `sep.join(parts)` */
  function Join(parts: seq<string>, sep: string): string
    decreases |parts|
  {
    if |parts| == 0 then ""
    else if |parts| == 1 then parts[0]
    else parts[0] + sep + Join(parts[1..], sep)
  }

  lemma JoinAfterEmpty(rest: seq<string>, sep: string)
    requires |rest| >= 1
    ensures Join([""] + rest, sep) == sep + Join(rest, sep)
  {
    assert ([""] + rest)[1..] == rest;
  }

  lemma JoinExtendFirst(c: char, rest: seq<string>, sep: string)
    requires |rest| >= 1
    ensures Join([[c] + rest[0]] + rest[1..], sep) == [c] + Join(rest, sep)
  {
    var parts := [[c] + rest[0]] + rest[1..];
    if |rest| > 1 {
      assert parts[1..] == rest[1..];
    }
  }

  /** Joining the pieces of a split gives back the original string. */
  lemma {:induction false} JoinSplit(s: string, sep: string)
    requires |sep| > 0
    ensures Join(Split(s, sep), sep) == s
    decreases |s|
  {
    if |s| == 0 {
    } else if StartsWith(s, sep) {
      var tail := s[|sep|..];
      JoinSplit(tail, sep);
      JoinAfterEmpty(Split(tail, sep), sep);
      assert s == s[..|sep|] + tail;
    } else {
      JoinSplit(s[1..], sep);
      JoinExtendFirst(s[0], Split(s[1..], sep), sep);
      assert s == [s[0]] + s[1..];
    }
  }

  /** A string without any occurrence of the separator splits into itself. */
  lemma {:induction false} SplitWithoutSep(s: string, sep: string)
    requires |sep| > 0
    requires forall i :: 0 <= i < |s| ==> !StartsWith(s[i..], sep)
    ensures Split(s, sep) == [s]
    decreases |s|
  {
    if |s| > 0 {
      assert s[0..] == s;
      forall i | 0 <= i < |s[1..]|
        ensures !StartsWith(s[1..][i..], sep)
      {
        assert s[1..][i..] == s[i + 1..];
      }
      SplitWithoutSep(s[1..], sep);
      assert [s[0]] + s[1..] == s;
    }
  }

  /** No occurrence of `sep` in `w + sep + t` straddles the end of `w`. */
  predicate NoStraddle(w: string, sep: string, t: string) {
    forall i :: 0 <= i < |w| < i + |sep| ==> !StartsWith((w + sep + t)[i..], sep)
  }

  /** Dropping a prefix of `w` keeps the boundary clean. */
  lemma NoStraddleTail(w: string, sep: string, t: string, d: nat)
    requires d <= |w| && NoStraddle(w, sep, t)
    ensures NoStraddle(w[d..], sep, t)
  {
    var w' := w[d..];
    forall i | 0 <= i < |w'| < i + |sep|
      ensures !StartsWith((w' + sep + t)[i..], sep)
    {
      assert (w' + sep + t)[i..] == (w + sep + t)[i + d..];
    }
  }

  /** With a clean boundary, `w + sep + t` starts with `sep` exactly when
      `w` is empty or starts with it. */
  lemma StartsAcross(w: string, sep: string, t: string)
    requires |w| > 0 && NoStraddle(w, sep, t)
    ensures StartsWith(w + sep + t, sep) <==> StartsWith(w, sep)
  {
    var s := w + sep + t;
    if |w| < |sep| {
      assert s[0..] == s;
    } else {
      assert s[..|sep|] == w[..|sep|];
    }
  }

  /** Gluing a character onto the first piece commutes with appending pieces. */
  lemma ConsFirst(c: char, a: seq<string>, b: seq<string>)
    requires |a| >= 1
    ensures [[c] + (a + b)[0]] + (a + b)[1..] == ([[c] + a[0]] + a[1..]) + b
  {
    assert (a + b)[0] == a[0];
    assert (a + b)[1..] == a[1..] + b;
  }

  /** Splitting at an occurrence that nothing overlaps splits each side
      independently. */
  lemma {:induction false} SplitAround(w: string, sep: string, t: string)
    requires |sep| > 0
    requires NoStraddle(w, sep, t)
    ensures Split(w + sep + t, sep) == Split(w, sep) + Split(t, sep)
    decreases |w|
  {
    var s := w + sep + t;
    if |w| == 0 {
      assert s == sep + t && s[..|sep|] == sep && s[|sep|..] == t;
    } else {
      StartsAcross(w, sep, t);
      if StartsWith(w, sep) {
        var w' := w[|sep|..];
        assert s[|sep|..] == w' + sep + t;
        NoStraddleTail(w, sep, t, |sep|);
        SplitAround(w', sep, t);
      } else {
        var w' := w[1..];
        assert s[1..] == w' + sep + t;
        NoStraddleTail(w, sep, t, 1);
        SplitAround(w', sep, t);
        assert w[0] == s[0];
        ConsFirst(w[0], Split(w', sep), Split(t, sep));
      }
    }
  }

  // ---------------------------------------------------------------------
  // whitespace and case

  /** The characters Python's `str.isspace()` accepts, so those `strip()` removes. */
  predicate IsSpace(c: char) {
    || ('\t' <= c <= '\r')
    || ('\U{1C}' <= c <= '\U{1F}')
    || c == ' ' || c == '\U{85}' || c == '\U{A0}' || c == '\U{1680}'
    || ('\U{2000}' <= c <= '\U{200A}')
    || c == '\U{2028}' || c == '\U{2029}' || c == '\U{202F}' || c == '\U{205F}' || c == '\U{3000}'
  }

  /** `s.lstrip()` */
  function TrimStart(s: string): (r: string)
    ensures |r| <= |s| && r == s[|s| - |r|..]
    ensures forall i :: 0 <= i < |s| - |r| ==> IsSpace(s[i])
    ensures r == [] || !IsSpace(r[0])
    decreases |s|
  {
    if |s| > 0 && IsSpace(s[0]) then TrimStart(s[1..]) else s
  }

  /** `s.rstrip()` */
  function TrimEnd(s: string): (r: string)
    ensures |r| <= |s| && r == s[..|r|]
    ensures forall i :: |r| <= i < |s| ==> IsSpace(s[i])
    ensures r == [] || !IsSpace(r[|r| - 1])
    decreases |s|
  {
    if |s| > 0 && IsSpace(s[|s| - 1]) then TrimEnd(s[..|s| - 1]) else s
  }

  /** `s.strip()`: the text between the leading and the trailing whitespace. */
  function Strip(s: string): (r: string)
    ensures |r| <= |s|
    ensures r == [] || (!IsSpace(r[0]) && !IsSpace(r[|r| - 1]))
  {
    TrimEnd(TrimStart(s))
  }

  /** `s.strip()` is empty exactly when `s` is all whitespace. */
  lemma StripEmpty(s: string)
    ensures Strip(s) == [] <==> forall i :: 0 <= i < |s| ==> IsSpace(s[i])
  {
    var t := TrimStart(s);
    if Strip(s) == [] {
      assert |t| == 0;
    }
  }

  /** A string already free of surrounding whitespace is its own strip. */
  lemma StripUnchanged(s: string)
    requires s == [] || (!IsSpace(s[0]) && !IsSpace(s[|s| - 1]))
    ensures Strip(s) == s
  {
  }

  /** `strip()` is idempotent. */
  lemma StripIdempotent(s: string)
    ensures Strip(Strip(s)) == Strip(s)
  {
    StripUnchanged(Strip(s));
  }

  /** The lower case of a character whose lower case is one character:
      ASCII and Latin-1 capitals (the letters of Portuguese) move up by 32,
      and the Kelvin sign U+212A becomes an ASCII 'k'. Other characters are
      kept. */
  function LowerChar(c: char): (r: char)
    ensures ('A' <= c <= 'Z') ==> r as int == c as int + 32
    ensures c == '\U{212A}' ==> r == 'k'
    ensures !('A' <= c <= 'Z') && !('\U{C0}' <= c <= '\U{DE}') && c != '\U{212A}' ==> r == c
  {
    if 'A' <= c <= 'Z' || ('\U{C0}' <= c <= '\U{DE}' && c != '\U{D7}') then (c as int + 32) as char
    else if c == '\U{212A}' then 'k'
    else c
  }

  /** The capital I with a dot above, U+0130, whose lower case is two
      characters: 'i' followed by the combining dot U+0307. */
  const DottedCapitalI := '\U{130}'

  /** `c.lower()` as a string. */
  function LowerOne(c: char): (r: string)
    ensures c == DottedCapitalI ==> r == "i\U{307}"
    ensures c != DottedCapitalI ==> r == [LowerChar(c)]
  {
    if c == DottedCapitalI then "i\U{307}" else [LowerChar(c)]
  }

  /** `s.lower()`: each character lowered in place. */
  function Lower(s: string): (r: string)
    ensures |r| >= |s|
    ensures (forall i :: 0 <= i < |s| ==> s[i] != DottedCapitalI) ==>
      |r| == |s| && forall i :: 0 <= i < |s| ==> r[i] == LowerChar(s[i])
    decreases |s|
  {
    if |s| == 0 then [] else LowerOne(s[0]) + Lower(s[1..])
  }

  /** Lowering works character by character: lowering a concatenation is
      concatenating the lowered parts. */
  lemma {:induction false} LowerAppend(s: string, t: string)
    ensures Lower(s + t) == Lower(s) + Lower(t)
    decreases |s|
  {
    if |s| > 0 {
      assert (s + t)[1..] == s[1..] + t;
      LowerAppend(s[1..], t);
    } else {
      assert s + t == t;
    }
  }

  // ---------------------------------------------------------------------
  // decimal integers

  predicate IsDigit(c: char) {
    '0' <= c <= '9'
  }

  function DigitChar(d: nat): (c: char)
    requires d < 10
    ensures IsDigit(c) && c as int - '0' as int == d
  {
    ('0' as int + d) as char
  }

  /** `str(n)` for a natural number. */
  function NatToString(n: nat): (r: string)
    ensures |r| >= 1
    ensures forall i :: 0 <= i < |r| ==> IsDigit(r[i])
    ensures n < 10 ==> r == [DigitChar(n)]
  {
    if n < 10 then [DigitChar(n)] else NatToString(n / 10) + [DigitChar(n % 10)]
  }

  /** `str(i)` for any integer: a minus sign before the digits of `|i|`. */
  function IntToString(i: int): (r: string)
    ensures |r| >= 1
    ensures forall k :: 0 <= k < |r| ==> IsDigit(r[k]) || r[k] == '-'
  {
    if i < 0 then "-" + NatToString(-i) else NatToString(i)
  }

  predicate AllDigits(s: string) {
    forall i :: 0 <= i < |s| ==> IsDigit(s[i])
  }

  /** The value of a run of decimal digits. */
  function DigitsValue(s: string): nat
    requires forall i :: 0 <= i < |s| ==> IsDigit(s[i])
    decreases |s|
  {
    if |s| == 0 then 0
    else
      assert IsDigit(s[|s| - 1]);
      DigitsValue(s[..|s| - 1]) * 10 + (s[|s| - 1] as int - '0' as int)
  }

  // ---------------------------------------------------------------------
  // the text `int()` reads

  /** The first code point of each run of ten decimal digits, the
      characters of Unicode general category Nd (Unicode 15.0). Each run
      holds the digits 0 to 9 in order; '0' heads the first. The table is
      kept in five parts, each short enough for the verifier to check
      entry by entry. */
  const DigitZeros: seq<int> := DigitZerosA + DigitZerosB + DigitZerosC + DigitZerosD + DigitZerosE

  const DigitZerosA: seq<int> := [
    0x30, 0x660, 0x6F0, 0x7C0, 0x966, 0x9E6, 0xA66,
    0xAE6, 0xB66, 0xBE6, 0xC66, 0xCE6, 0xD66, 0xDE6
  ]
  const DigitZerosB: seq<int> := [
    0xE50, 0xED0, 0xF20, 0x1040, 0x1090, 0x17E0, 0x1810,
    0x1946, 0x19D0, 0x1A80, 0x1A90, 0x1B50, 0x1BB0, 0x1C40
  ]
  const DigitZerosC: seq<int> := [
    0x1C50, 0xA620, 0xA8D0, 0xA900, 0xA9D0, 0xA9F0, 0xAA50,
    0xABF0, 0xFF10, 0x104A0, 0x10D30, 0x11066, 0x110F0, 0x11136
  ]
  const DigitZerosD: seq<int> := [
    0x111D0, 0x112F0, 0x11450, 0x114D0, 0x11650, 0x116C0, 0x11730,
    0x118E0, 0x11950, 0x11C50, 0x11D50, 0x11DA0, 0x11F50, 0x16A60
  ]
  const DigitZerosE: seq<int> := [
    0x16AC0, 0x16B50, 0x1D7CE, 0x1D7D8, 0x1D7E2, 0x1D7EC, 0x1D7F6,
    0x1E140, 0x1E2F0, 0x1E4F0, 0x1E950, 0x1FBF0
  ]

  /** No run reaches a character above U+007F that `isspace()` accepts. */
  predicate ClearOfSpace(z: int) {
    && (z + 10 <= 0x85 || 0xA0 < z)
    && (z + 10 <= 0x1680 || 0x1680 < z)
    && (z + 10 <= 0x2000 || 0x205F < z)
    && (z + 10 <= 0x3000 || 0x3000 < z)
  }

  /** Every digit of the run starting at `z` is a character. */
  predicate CharRun(z: int) {
    (0 <= z && z + 10 <= 0xD800) || (0xE000 <= z && z + 10 <= 0x11_0000)
  }

  /** Runs that are characters clear of whitespace, each ending before the
      next begins. */
  predicate Ascends(z: seq<int>) {
    && (forall i :: 0 <= i < |z| ==> CharRun(z[i]) && ClearOfSpace(z[i]))
    && (forall i :: 0 < i < |z| ==> z[i - 1] + 10 <= z[i])
  }

  /** `Ascends` from run `i` on, checked one run at a time. */
  predicate RunsFrom(z: seq<int>, i: nat)
    decreases |z| - i
  {
    i >= |z|
    || (&& CharRun(z[i]) && ClearOfSpace(z[i])
        && (i + 1 < |z| ==> z[i] + 10 <= z[i + 1])
        && RunsFrom(z, i + 1))
  }

  lemma {:induction false} RunsFromAll(z: seq<int>, i: nat)
    requires RunsFrom(z, i)
    ensures forall k :: i <= k < |z| ==> CharRun(z[k]) && ClearOfSpace(z[k])
    ensures forall k :: i < k < |z| ==> z[k - 1] + 10 <= z[k]
    decreases |z| - i
  {
    if i < |z| {
      RunsFromAll(z, i + 1);
    }
  }

  /** Two ascending tables, the first ending before the second begins,
      ascend together. */
  lemma AscendsJoin(a: seq<int>, b: seq<int>)
    requires Ascends(a) && Ascends(b) && |a| > 0 && |b| > 0 && a[|a| - 1] + 10 <= b[0]
    ensures Ascends(a + b)
  {
    var z := a + b;
    forall i | 0 < i < |z|
      ensures z[i - 1] + 10 <= z[i]
    {
      if i == |a| {
        assert z[i - 1] == a[|a| - 1] && z[i] == b[0];
      } else if i > |a| {
        assert z[i - 1] == b[i - 1 - |a|] && z[i] == b[i - |a|];
      }
    }
  }

  lemma RunsAscend(z: seq<int>)
    requires RunsFrom(z, 0)
    ensures Ascends(z)
  {
    RunsFromAll(z, 0);
  }

  /** Five ascending tables, each ending before the next begins, ascend
      together. */
  lemma AscendsJoinFive(a: seq<int>, b: seq<int>, c: seq<int>, d: seq<int>, e: seq<int>)
    requires Ascends(a) && Ascends(b) && Ascends(c) && Ascends(d) && Ascends(e)
    requires |a| > 0 && |b| > 0 && |c| > 0 && |d| > 0 && |e| > 0
    requires a[|a| - 1] + 10 <= b[0] && b[|b| - 1] + 10 <= c[0]
    requires c[|c| - 1] + 10 <= d[0] && d[|d| - 1] + 10 <= e[0]
    ensures Ascends(a + b + c + d + e)
  {
    AscendsJoin(a, b);
    assert (a + b)[|a + b| - 1] == b[|b| - 1];
    AscendsJoin(a + b, c);
    assert (a + b + c)[|a + b + c| - 1] == c[|c| - 1];
    AscendsJoin(a + b + c, d);
    assert (a + b + c + d)[|a + b + c + d| - 1] == d[|d| - 1];
    AscendsJoin(a + b + c + d, e);
  }

  lemma DigitZerosAAscends()
    ensures Ascends(DigitZerosA)
  {
    assert RunsFrom(DigitZerosA, 0);
    RunsAscend(DigitZerosA);
  }

  lemma DigitZerosBAscends()
    ensures Ascends(DigitZerosB)
  {
    assert RunsFrom(DigitZerosB, 0);
    RunsAscend(DigitZerosB);
  }

  lemma DigitZerosCAscends()
    ensures Ascends(DigitZerosC)
  {
    assert RunsFrom(DigitZerosC, 0);
    RunsAscend(DigitZerosC);
  }

  lemma DigitZerosDAscends()
    ensures Ascends(DigitZerosD)
  {
    assert RunsFrom(DigitZerosD, 0);
    RunsAscend(DigitZerosD);
  }

  lemma DigitZerosEAscends()
    ensures Ascends(DigitZerosE)
  {
    assert RunsFrom(DigitZerosE, 0);
    RunsAscend(DigitZerosE);
  }

  /** The runs come in increasing order without overlapping, every digit
      in them is a character, and none is whitespace. */
  lemma DigitRunsAscend()
    ensures Ascends(DigitZeros)
  {
    DigitZerosAAscends();
    DigitZerosBAscends();
    DigitZerosCAscends();
    DigitZerosDAscends();
    DigitZerosEAscends();
    AscendsJoinFive(DigitZerosA, DigitZerosB, DigitZerosC, DigitZerosD, DigitZerosE);
  }

  /** In an ascending table, a later run starts after an earlier one
      ends. */
  lemma {:induction false} RunsApart(z: seq<int>, i: nat, j: nat)
    requires Ascends(z) && i < j < |z|
    ensures z[i] + 10 <= z[j]
    decreases j - i
  {
    if i + 1 < j {
      RunsApart(z, i + 1, j);
    }
  }

  /** The value of `c` as a digit of run `k` of table `z` or a later one. */
  function DecimalIn(z: seq<int>, c: char, k: nat): (d: Option<nat>)
    requires k <= |z|
    ensures d.Some? ==> d.value < 10 && exists j :: k <= j < |z| && c as int == z[j] + d.value
    decreases |z| - k
  {
    if k == |z| then None
    else if z[k] <= c as int < z[k] + 10 then Some(c as int - z[k])
    else DecimalIn(z, c, k + 1)
  }

  /** The value of a Unicode decimal digit; `None` for any other
      character. */
  function DecimalValue(c: char): (d: Option<nat>)
    ensures d.Some? ==> d.value < 10 && exists j :: 0 <= j < |DigitZeros| && c as int == DigitZeros[j] + d.value
  {
    DecimalIn(DigitZeros, c, 0)
  }

  lemma {:induction false} DecimalInRun(z: seq<int>, c: char, k: nat, j: nat, v: nat)
    requires Ascends(z) && k <= j < |z| && v < 10 && c as int == z[j] + v
    ensures DecimalIn(z, c, k) == Some(v)
    decreases j - k
  {
    if k < j {
      RunsApart(z, k, j);
      DecimalInRun(z, c, k + 1, j, v);
    }
  }

  /** Every digit of every run reads as its place in the run. */
  lemma DecimalDigitValue(c: char, j: nat, v: nat)
    requires j < |DigitZeros| && v < 10 && c as int == DigitZeros[j] + v
    ensures DecimalValue(c) == Some(v)
  {
    DigitRunsAscend();
    DecimalInRun(DigitZeros, c, 0, j, v);
  }

  /** The four ASCII information separators, U+001C to U+001F:
      `isspace()`, and so `strip()`, accepts them, but `int()` does not
      skip them. */
  predicate IsSeparator(c: char) {
    '\U{1C}' <= c <= '\U{1F}'
  }

  /** The whitespace `int()` skips around a number, once the text is
      rewritten to ASCII. */
  predicate IntSpace(c: char) {
    IsSpace(c) && !IsSeparator(c)
  }

  /** One character as `int()` rewrites it before parsing: a character
      below U+007F stays; other whitespace becomes ' '; a decimal digit
      becomes its ASCII digit; anything else becomes '?', which no parse
      accepts. */
  function IntChar(c: char): (r: char)
    ensures r as int < 127
    ensures c as int < 127 ==> r == c
  {
    if c as int < 127 then c
    else if IsSpace(c) then ' '
    else match DecimalValue(c)
      case Some(d) => DigitChar(d)
      case None => '?'
  }

  /** The rewritten text `int()` parses: one character for each of `s`,
      ASCII ones kept. */
  function IntText(s: string): (t: string)
    ensures |t| == |s|
    ensures forall i :: 0 <= i < |s| ==> t[i] == IntChar(s[i])
  {
    seq(|s|, i requires 0 <= i < |s| => IntChar(s[i]))
  }

  /** Text below U+007F is read as it is. */
  lemma IntTextAscii(s: string)
    requires forall i :: 0 <= i < |s| ==> s[i] as int < 127
    ensures IntText(s) == s
  {
  }

  /** `int(s)`: the text rewritten to ASCII, then optional surrounding
      whitespace, an optional sign and at least one decimal digit;
      anything else raises (here: `None`). */
  function ParseInt(s: string): Option<int> {
    ParseAscii(IntText(s))
  }

  /** `int` on the rewritten text. An information separator is neither
      whitespace, sign nor digit to it, so one anywhere makes it raise;
      without one, the whitespace it skips is what `strip()` removes. */
  function ParseAscii(t: string): Option<int> {
    if exists i :: 0 <= i < |t| && IsSeparator(t[i]) then None
    else ParseSigned(Strip(t))
  }

  /** `int` once the whitespace is gone: an optional sign, then digits. */
  function ParseSigned(t: string): Option<int> {
    var neg := |t| > 0 && t[0] == '-';
    var body := if |t| > 0 && (t[0] == '-' || t[0] == '+') then t[1..] else t;
    if |body| == 0 || !AllDigits(body) then None
    else
      var v: int := DigitsValue(body);
      Some(if neg then -v else v)
  }

  /** One separator anywhere makes `int()` raise. */
  lemma SeparatorRejected(s: string, i: nat)
    requires i < |s| && IsSeparator(s[i])
    ensures ParseInt(s).None?
  {
    assert IntText(s)[i] == s[i];
  }

  /** `int()` rewrites a digit of any run to the ASCII digit of the same
      value. */
  lemma DigitRewrites(c: char, j: nat, v: nat)
    requires j < |DigitZeros| && v < 10 && c as int == DigitZeros[j] + v
    ensures IntChar(c) == DigitChar(v)
  {
    DigitRunsAscend();
    if j == 0 {
      assert DigitZeros[0] == 0x30;
    } else {
      assert DigitZeros[1] == 0x660;
      if 1 < j {
        RunsApart(DigitZeros, 1, j);
      }
      assert CharRun(DigitZeros[j]) && ClearOfSpace(DigitZeros[j]);
      assert !IsSpace(c);
      DecimalDigitValue(c, j, v);
    }
  }

  /** A single ASCII digit reads as its value. */
  lemma ParseOneDigit(d: nat)
    requires d < 10
    ensures ParseAscii([DigitChar(d)]) == Some(d)
  {
    var t := [DigitChar(d)];
    assert Strip(t) == t by {
      StripUnchanged(t);
    }
    assert t[..0] == [];
    DigitsSigned(t);
  }

  /** A Unicode decimal digit reads as its value. */
  lemma ParseUnicodeDigit(c: char, j: nat, v: nat)
    requires j < |DigitZeros| && v < 10 && c as int == DigitZeros[j] + v
    ensures ParseInt([c]) == Some(v)
  {
    DigitRewrites(c, j, v);
    assert IntText([c]) == [DigitChar(v)];
    ParseOneDigit(v);
  }

  lemma {:induction false} DigitsValueOfNat(n: nat)
    ensures DigitsValue(NatToString(n)) == n
  {
    if n >= 10 {
      var s := NatToString(n);
      assert s[..|s| - 1] == NatToString(n / 10);
      DigitsValueOfNat(n / 10);
    }
  }

  /** After the strip, a run of digits is its value. */
  lemma DigitsSigned(d: string)
    requires |d| > 0 && AllDigits(d)
    ensures ParseSigned(d) == Some(DigitsValue(d) as int)
  {
    assert IsDigit(d[0]);
  }

  /** A natural number's digits read back as that number. */
  lemma ParseNonNegative(i: int)
    requires i >= 0
    ensures ParseAscii(IntToString(i)) == Some(i)
  {
    var s := NatToString(i);
    assert IntToString(i) == s;
    assert Strip(s) == s by {
      assert IsDigit(s[0]) && IsDigit(s[|s| - 1]);
      StripUnchanged(s);
    }
    DigitsSigned(s);
    DigitsValueOfNat(i);
  }

  /** After the strip, '-' and a run of digits is the negated value. */
  lemma MinusSigned(d: string)
    requires |d| > 0 && AllDigits(d)
    ensures ParseSigned("-" + d) == Some(-(DigitsValue(d) as int))
  {
    var s := "-" + d;
    assert s[1..] == d;
  }

  /** '-' and a run of digits reads as the negated value. */
  lemma ParseMinusDigits(d: string)
    requires |d| > 0 && AllDigits(d)
    ensures ParseAscii("-" + d) == Some(-(DigitsValue(d) as int))
  {
    var s := "-" + d;
    assert s[0] == '-' && s[|s| - 1] == d[|d| - 1] && IsDigit(d[|d| - 1]);
    StripUnchanged(s);
    MinusSigned(d);
  }

  /** A negative number's text reads back as that number. */
  lemma ParseNegative(i: int)
    requires i < 0
    ensures ParseAscii(IntToString(i)) == Some(i)
  {
    var d := NatToString(-i);
    assert IntToString(i) == "-" + d;
    assert AllDigits(d);
    DigitsValueOfNat(-i);
    assert -(DigitsValue(d) as int) == i;
    var t := IntToString(i);
    assert t == "-" + d;
    ParseMinusDigits(d);
  }

  /** `int(str(i)) == i` */
  lemma ParseIntToString(i: int)
    ensures ParseInt(IntToString(i)) == Some(i)
  {
    IntTextAscii(IntToString(i));
    if i < 0 {
      ParseNegative(i);
    } else {
      ParseNonNegative(i);
    }
  }

  /** Different naturals print differently. */
  lemma NatToStringInjective(m: nat, n: nat)
    requires NatToString(m) == NatToString(n)
    ensures m == n
  {
    DigitsValueOfNat(m);
    DigitsValueOfNat(n);
  }
}

=== FILE: wrappers.dfy ===
/** Failure-carrying types shared by every module of the model: `Option` for
    a value that may be absent (Python's `None`), `Result` for an operation
    that may raise. */
module Wrappers {

  datatype Option<+T> = None | Some(value: T)

  datatype Result<+T, +E> = Ok(value: T) | Err(error: E)
}
